=== FILE: README.md ===
# Movie_Meter server core, in Dafny

Movie_Meter's `server.js` answers two endpoints:

- `/api/search` lists TMDB's matches for a title.
- `/api/movie/:id` builds one movie record from TMDB's details and three scraped ratings (IMDb, Rotten Tomatoes and Letterboxd), and keeps that record in a one-hour cache.

This project models the deterministic part of the server and proves properties of it. Every upstream service is an input: a total function from what the server asks for to `Ok(reply)` or `Fail`, collected in the `Upstream.Web` record. A reply already holds what cheerio's selectors and `JSON.parse` would extract from it.

Modules, in dependency order:

- `Wrappers`: `Option` and `Reply` (`Ok(body)` or `Fail`).
- `Text`: JavaScript's `\s`, `\w`, ASCII `toLowerCase`, `trim`, and small scanning functions.
- `Slugs`: the Rotten Tomatoes title slug (lower-case, drop the first `(yyyy)`, trim, strip, `_` for whitespace runs) and the Letterboxd slug (the year is dropped with its surrounding whitespace, `-` is kept, `-` for whitespace runs).
- `Patterns`: hand-written recognisers for each regular expression the scrapers apply. Each search answers the leftmost match, as `match` without the `g` flag does. There is also `parseFloat`'s "is not NaN" test, stated on text.
- `Chains`: the three rating-extraction chains. Each is an ordered sequence of probe outcomes, and `Resolve` picks the first one that fired, or `N/A`.
- `Upstream`: the replies of TMDB, OMDB, IMDb, Rotten Tomatoes, Letterboxd and Google.
- `Resolvers`: the three resolvers, built on the following.
  - IMDb: TMDB search, first hit, `imdb_id`, IMDb page, then the IMDb chain.
  - Rotten Tomatoes: OMDB first, then the slug page.
  - Letterboxd: the page acquisition, imperative as in the source. It tries the direct slug address, then the site search's first result, then Google's first film link (a loop that stops early). The Letterboxd chain then reads the page.
- `Records`: the movie record (year, plot, poster, first YouTube trailer, four rating slots) and the search answer with its `multipleResults` flag.
- `Cache`: the NodeCache instance as a class holding a map from key to entry. The clock is explicit, and an entry is stale once its expiry instant is in the past.
- `Handler`: the `/api/movie/:id` endpoint.
  - A cache hit is answered without going upstream.
  - A failed TMDB fetch answers 500 and stores nothing.
  - Otherwise the record is built, stored and answered.

The Rotten Tomatoes scraper (server.js:142-190) reads the film page with Letterboxd's selectors and fallbacks. Its log messages and error label also name Letterboxd. The model follows the code as written. The two chains differ in three places:

- Rotten Tomatoes first tries its critics score (server.js:142-147). That score counts only when it contains `%`. Letterboxd first tries the tooltip rating `a.tooltip.display-rating` (server.js:307-312).
- The second probe of Rotten Tomatoes is that same tooltip rating (server.js:149). The second probe of Letterboxd is the broader `.display-rating` (server.js:314). The three selectors after that are the same in both.
- Rotten Tomatoes appends `%` to the `twitter:data2` score (server.js:160-166). Letterboxd does not (server.js:325-331).

The two year rules also differ. The `/api/movie/:id` record takes its year with `split('-')[0] || 'Unknown'` (server.js:425). A search entry uses `release_date ? … : 'Unknown'` (server.js:469). The two disagree exactly on a date that begins with `-` (`Records.YearRulesDiffer`).

## Model

| member | source | states |
|---|---|---|
| `Text.Lower` | server.js:122 | lower-casing a character leaves no upper-case letter, maps each of `A-Z` to its own letter in `a-z` (32 code points up) and keeps everything else |
| `Text.ToLowerHasNoUpper` | server.js:122 | a lower-cased title has no upper-case letter |
| `Text.ToLower` | server.js:122 | the result has the input's length; each upper-case letter moves 32 code points up to its lower-case letter, and every other character is kept |
| `Text.Utf16Length` | server.js:71 | `length` in UTF-16 code units: at least one and at most two per character, exactly one per character when all lie in the Basic Multilingual Plane |
| `Text.Utf16Char` | server.js:71 | a single character is one code unit, or two when it lies beyond U+FFFF |
| `Text.Utf16Concat` | server.js:71 | the code units of a concatenation are the sum of those of its parts |
| `Text.Utf16AstralExample` | server.js:71 | `8.1` followed by U+1F600 is five code units, so the button check rejects it |
| `Text.TrimStart` | server.js:124 | drops exactly the leading whitespace run: a suffix of the input starting at its first non-space |
| `Text.TrimEnd` | server.js:124 | drops exactly the trailing whitespace run: a prefix of the input ending at its last non-space |
| `Text.Trim` | server.js:124 | the trimmed text has no whitespace at either end and uses only characters of the input |
| `Text.TrimStartUnique` | server.js:124 | any suffix that starts at a non-space, or is empty, and follows only spaces is what `TrimStart` returns |
| `Text.TrimBothEnds` | server.js:124 | `trim` is removing the leading whitespace run and then the trailing one |
| `Text.TrimWithoutSpace` | server.js:124 | `trim` leaves text without whitespace unchanged |
| `Text.ToLowerIdentity` | server.js:122 | lower-casing text without upper-case letters changes nothing |
| `Slugs.FindYearFrom` | server.js:123 | finds the leftmost `(dddd)` at or after a position, or proves there is none |
| `Slugs.RemoveYear` | server.js:123 | text without a year is unchanged; otherwise exactly the six characters of the leftmost `(dddd)` are cut out, and the text before and after it is kept |
| `Slugs.RemoveSpacedYear` | server.js:203 | text without a year is unchanged; otherwise the leftmost year is cut out together with the whole whitespace run on each side of it, and the text before and after is kept |
| `Slugs.Strip` | server.js:125 | what remains are exactly the input's word, whitespace (and, for Letterboxd, `-`) characters |
| `Slugs.StripIsFilter` | server.js:125 | stripping works character by character: it distributes over concatenation, and a single character is kept or dropped by `Kept` alone |
| `Slugs.StripKeepsAllKept` | server.js:204 | stripping text made only of kept characters changes nothing |
| `Slugs.Collapse` | server.js:126 | replacing whitespace runs leaves only the separator and the input's non-space characters; non-empty input stays non-empty |
| `Slugs.CollapseRun` | server.js:126 | a whitespace run of any length, up to the next non-space, becomes one separator |
| `Slugs.CollapseDoubleSpaceExample` | server.js:126 | `a  b` becomes `a`, one separator, `b` |
| `Slugs.CollapseWithoutSpace` | server.js:206 | text without whitespace is left as it is |
| `Slugs.CollapseWordPrefix` | server.js:126 | a whitespace-free prefix passes through unchanged ahead of the collapsed rest |
| `Slugs.CollapseKeepsLast` | server.js:206 | text ending in a non-space keeps that last character |
| `Slugs.NoParenNoYear` | server.js:123 | text without `(` contains no year |
| `Slugs.RtSlug` | server.js:122-126 | a Rotten Tomatoes slug uses only `[a-z0-9_]`, so every hyphen and punctuation mark is gone |
| `Slugs.LbSlug` | server.js:202-206 | a Letterboxd slug uses only `[a-z0-9_-]` and contains no whitespace |
| `Slugs.RtSlugIdempotent` | server.js:122-126 | normalising a Rotten Tomatoes slug again returns it unchanged |
| `Slugs.LbSlugIdempotent` | server.js:202-206 | normalising a Letterboxd slug again returns it unchanged |
| `Slugs.LbSlugFixed` | server.js:202-206 | any text in the Letterboxd slug alphabet is its own slug |
| `Slugs.LbSlugNoEdgeHyphen` | server.js:202-206 | for a title without `-`, whitespace never becomes a leading or trailing `-` |
| `Slugs.RemoveYearKeepsLaterYear` | server.js:123 | only the first year goes: a later year survives, shifted six places |
| `Slugs.RemoveSpacedYearKeepsLaterYear` | server.js:203 | a later year lies after the cut and survives the spaced removal, moved back by exactly the length of the cut |
| `Slugs.RtSlugExample` | server.js:122-126 | `The Matrix (1999)` becomes `the_matrix` |
| `Slugs.LbSlugExample` | server.js:202-206 | `The Matrix (1999)` becomes `the-matrix` |
| `Patterns.NotAvailableIsNotNumeric` | server.js:89 | the `N/A` sentinel never passes the `parseFloat` test |
| `Patterns.ScoreOutOfFive` | server.js:162 | absent exactly when no position matches; otherwise the capture is the whole maximal run of digits and dots at the leftmost matching position |
| `Patterns.GuardAt` | server.js:161-162 | a text matched at any position contains `out of 5` |
| `Patterns.ScoreMatchImpliesGuard` | server.js:161-162 | whenever the pattern matches, the `includes('out of 5')` guard already holds |
| `Patterns.OneDecimalOutOfFive` | server.js:348 | absent exactly when no position matches; otherwise the capture is the three characters `d.d` at the leftmost matching position |
| `Patterns.TwoDecimalsOnlyMatchTheWidePattern` | server.js:348 | `3.85 out of 5` escapes the body pattern although the meta pattern captures `3.85` |
| `Patterns.UnwrapGoogleHref` | server.js:276 | without a `url?q=` match the href is kept; with one, the text after the leftmost match up to the next `&`, which is non-empty and has no `&` |
| `Patterns.UnwrapGoogleHrefExample` | server.js:276 | a Google redirect to a film page yields the film address |
| `Patterns.RatingCapture` | server.js:88 | the `([^"]+)` capture is non-empty, has no `"`, starts right after the opening quote that follows `"ratingValue":` and its whitespace, and runs up to the next `"` or the end of the text |
| `Patterns.ParsesAsFloatSkipsSpace` | server.js:59 | `parseFloat` skips leading whitespace: ` 7.5` is a number |
| `Patterns.GreedyTail` | server.js:88 | for a given `aggregateRating"` position, finds the rightmost `"ratingValue":` the greedy `[^>]*` can reach, or proves there is none |
| `Patterns.FindImdbMatch` | server.js:88 | finds the leftmost position where the pattern matches, or proves it matches nowhere |
| `Patterns.NoHeadNoMatch` | server.js:88 | when no head position matches, no pair of head and tail forms a match |
| `Patterns.HeadMatchesIff` | server.js:88 | a position starts a match exactly when some `ratingValue` completes it |
| `Patterns.LeftmostGreedy` | server.js:88 | the match found is leftmost, and within it the greediest |
| `Patterns.ImdbRatingScript` | server.js:88 | a capture is non-empty and has no `"` |
| `Patterns.ImdbRatingScriptSpec` | server.js:88 | no capture exactly when the pattern matches nowhere; otherwise the capture of the leftmost-greedy match |
| `Patterns.ImdbRatingScriptExample` | server.js:88 | `aggregateRating":{"ratingValue":"8.7"` yields `8.7` |
| `Chains.SelectorProbe` | server.js:58-59 | a selector's trimmed text fires exactly when it passes the probe's check, and the text is what is returned |
| `Chains.MetaProbe` | server.js:160-166 | the meta content fires exactly when the score pattern matches, returning the capture plus the suffix (`%` or nothing) |
| `Chains.GuardIsImplied` | server.js:161-163 | the `includes` guard in front of the pattern never rejects a content the pattern accepts |
| `Chains.LdProbe` | server.js:169-180 | JSON-LD fires exactly when it parsed and its `aggregateRating.ratingValue` is truthy; absent or unparsable falls through |
| `Chains.ScriptProbe` | server.js:88-92 | the page-source probe fires exactly when the pattern captures something that passes `parseFloat` |
| `Chains.FirstFired` | server.js:58-95 | finds the first probe that fired, with none before it, or proves none fired |
| `Chains.ResolveAt` | server.js:58-95 | when probe k fires and none before it does, the chain returns probe k's text |
| `Chains.ResolveExhausted` | server.js:95 | when no probe fires the chain returns `N/A` |
| `Chains.ResolveFrom` | server.js:58-95 | the chain's answer is `N/A` or the text of one of its probes |
| `Chains.ResolveStopsAtHit` | server.js:58-92 | probes after one that fired are never consulted |
| `Chains.ImdbChainNumeric` | server.js:58-95 | the IMDb chain answers `N/A` or non-empty text that passes `parseFloat` |
| `Chains.ImdbLongButtonSkipped` | server.js:70-74 | button text of five or more UTF-16 code units is passed over as if empty |
| `Chains.ImdbSelectorsBeforeScript` | server.js:58-92 | once a selector fires, the page source no longer matters |
| `Chains.ImdbScriptFallback` | server.js:88-92 | with all five selectors empty, the answer is the page-source capture when it is numeric |
| `Chains.ImdbScriptExample` | server.js:88-92 | a page whose only rating is in its source is rated `8.7` |
| `Chains.RtCriticsWins` | server.js:142-147 | a critics score containing `%` is returned first |
| `Chains.RtCriticsNeedsPercent` | server.js:142-147 | a critics score without `%` is passed over as if empty |
| `Chains.AlternativesResolve` | server.js:149-158 | after a probe that missed, the first of four unchecked selectors with non-empty text decides the answer |
| `Chains.RtAlternativeUnchecked` | server.js:149-158 | once the critics score is passed over, whichever of the four alternative selectors is the first with non-empty text is returned, with no format check |
| `Chains.RtMetaAppendsPercent` | server.js:160-166 | the `twitter:data2` score comes back with `%` appended |
| `Chains.RtMetaDiffersByPercent` | server.js:160-166 | on the same meta content, the Rotten Tomatoes answer is the Letterboxd answer plus `%` |
| `Chains.LbTooltipWins` | server.js:307-312 | a non-empty tooltip rating is returned first |
| `Chains.LbAlternativeWins` | server.js:314-323 | once the tooltip is empty, whichever of `.display-rating` and the three later selectors is the first with non-empty text is returned, unchecked |
| `Chains.LbMetaVerbatim` | server.js:325-331 | the meta score comes back as captured, without `%` |
| `Chains.LbJsonLdStringified` | server.js:334-341 | once the selectors are empty and the `twitter:data2` probe does not fire (no tag, or one without a match), the JSON-LD rating is returned as `toString` renders it |
| `Chains.LbUnparsableLikeMissing` | server.js:342-344 | JSON-LD that does not parse gives the same answer as no script |
| `Chains.LbBodyTwoDecimalsMissed` | server.js:347-355 | a page whose only rating is `3.85 out of 5` in its body text is rated `N/A` |
| `Resolvers.ImdbRatingNumeric` | server.js:35-99 | the IMDb resolver answers `N/A` or a number-like text |
| `Resolvers.ImdbRatingGivesUp` | server.js:35-99 | each early exit answers `N/A`: failed or empty search, failed details fetch or missing `imdb_id`, failed page fetch |
| `Resolvers.ImdbRatingFirstHitOnly` | server.js:37-39 | only the first TMDB hit is consulted |
| `Resolvers.FindRtEntry` | server.js:112 | finds the first OMDB rating whose source is Rotten Tomatoes, or proves there is none |
| `Resolvers.OmdbRtScore` | server.js:111-116 | OMDB supplies a score exactly when the reply says `True`, has `Ratings`, and its first Rotten Tomatoes entry has a non-empty value; the score is that first entry's `Value` |
| `Resolvers.OmdbFirstEntryOnly` | server.js:112-113 | an empty first Rotten Tomatoes entry is not rescued by a later one |
| `Resolvers.RtOmdbBeforeScraping` | server.js:108-120 | an OMDB score is returned as is, whatever the Rotten Tomatoes site would serve |
| `Resolvers.RtFetchFailure` | server.js:131-193 | without an OMDB score, a failed page fetch gives `N/A` |
| `Resolvers.FilmLink` | server.js:242-244 | the film link is the first truthy one of the poster's target link, the poster anchor and the title anchor |
| `Resolvers.FilmLinkTargetFirst` | server.js:242-244 | a non-empty target link is the film link whatever the two anchors hold; there is no link exactly when none of the three is truthy |
| `Resolvers.FilmTarget` | server.js:273-279 | the Google tier finds an address exactly when some anchor links to a Letterboxd film page; the address is non-empty and is the unwrapped href of the first such anchor |
| `Resolvers.FindLetterboxdHref` | server.js:272-279 | the anchor scan with early exit answers exactly `FilmTarget` |
| `Resolvers.Acquisition` | server.js:211-298 | the direct address always comes first; the search runs exactly when the direct fetch fails; Google runs exactly when the search also has no result; a direct success keeps the direct page and address |
| `Resolvers.AcquireFilmPage` | server.js:211-298 | the imperative acquisition ends in exactly the state `Acquisition` describes |
| `Resolvers.LinklessResultStops` | server.js:241-258 | a first search result without any link leaves no page, and Google is not tried |
| `Resolvers.SearchTierFetchesLink` | server.js:242-256 | the search tier fetches the Letterboxd origin followed by the film link |
| `Resolvers.GoogleTierFetchesTarget` | server.js:262-296 | once the first film anchor gives a target, the page is what fetching it returned (none when the fetch fails) and the address is the target exactly when that fetch succeeded; a kept page came from that target; without a film anchor there is no page |
| `Resolvers.LetterboxdRating` | server.js:300-355 | the Letterboxd resolver answers `N/A` without a non-empty page, else the Letterboxd chain on that page |
| `Resolvers.EmptyDirectPageGivesUp` | server.js:214-303 | an empty page at the direct address gives `N/A`, and the search tier is not tried |
| `Records.BeforeDash` | server.js:425 | `split('-')[0]`: the longest prefix without `-` |
| `Records.DetailYear` | server.js:425 | the record's year is `Unknown` or a non-empty dash-free prefix of the release date |
| `Records.SearchYear` | server.js:469 | a search entry's year is `Unknown` for a missing or empty date, else the text before the first `-` |
| `Records.YearRulesDiffer` | server.js:469 | the two year rules disagree exactly on a date that starts with `-` |
| `Records.YearExample` | server.js:425 | `1999-03-31` gives `1999` under both rules |
| `Records.Plot` | server.js:426 | the plot is never empty; it is the overview when there is one, and `No plot available` when the overview is missing or empty |
| `Records.PosterUrl` | server.js:427 | a poster address exists exactly when `poster_path` is non-empty, and is the w500 base followed by it |
| `Records.FindTrailer` | server.js:386 | finds the first video that is a YouTube trailer, or proves there is none |
| `Records.TrailerUrl` | server.js:384-395 | a trailer exists exactly when some video is a YouTube trailer, and it embeds the first such video's key |
| `Records.AssembleRecord` | server.js:423-435 | the title is TMDB's; year, plot, poster and trailer come from their own rules; a resolver that answered fills its slot with that answer, one that threw leaves `N/A`; the TMDB slot is the formatted vote, or `N/A` without one |
| `Records.Entry` | server.js:466-471 | a search entry keeps its result's id and title; its year follows the search year rule and its poster the poster rule |
| `Records.Entries` | server.js:466-471 | one entry per result, in the same order |
| `Records.SearchMovies` | server.js:448-485 | a missing query is refused; for a non-empty query the answer is a list exactly when the search succeeds; the list is the entries of the results, in order, and flags `multipleResults` exactly when there is more than one |
| `Records.EmptySearchAgrees` | server.js:459-464 | the early answer for zero results is what the general mapping would give |
| `Records.SearchKeepsOrder` | server.js:466-471 | the k-th movie has the k-th result's id and title |
| `Cache.Live` | server.js:369 | a read finds a value exactly when the key is present and not yet expired |
| `Cache.Purged` | server.js:369 | a read deletes the key only when it is stale, and leaves every other entry |
| `Cache.PurgeIsInvisible` | server.js:369 | deleting a stale entry changes no later read |
| `Cache.StoredUntilExpiry` | server.js:8 | a value stored at t is found by every read up to t + 3600 s and by none after |
| `Cache.StoreLeavesOtherKeys` | server.js:438 | storing under one key changes no other key's reads |
| `Cache.TtlCache.constructor` | server.js:8 | the cache starts empty with a 3600 s time-to-live |
| `Cache.TtlCache.Get` | server.js:369 | answers what was live under the key and removes the entry if it was stale |
| `Cache.TtlCache.Set` | server.js:438 | stores the value under the key, expiring one time-to-live after now |
| `Handler.CacheKey` | server.js:368 | the key is `movie_id:` followed by the id |
| `Handler.CacheKeyInjective` | server.js:368 | distinct ids never share a cache entry |
| `Handler.FreshRecord` | server.js:397-435 | each rating slot holds what its resolver answered, and the title is TMDB's |
| `Handler.FreshRecordShape` | server.js:399-435 | a fresh record's IMDb slot is `N/A` or number-like, and its year and plot are non-empty |
| `Handler.BuildRecord` | server.js:397-435 | resolving the three ratings in turn and assembling them gives `FreshRecord` |
| `Handler.Refresh` | server.js:375-444 | a failed details fetch answers 500 and leaves the cache alone; a success answers the fresh record and stores exactly it under the id's key |
| `Handler.HandleMovie` | server.js:363-445 | an empty id answers 400 and stores nothing; a hit answers the cached record without fetching; a miss fetches, and stores only a successful record |
| `Handler.RequestTwice` | server.js:368-438 | after a successful first request, a second one within the time-to-live is answered from the cache with the same record, and one after it refetches; after a failed first request the second fetches again |

## Left out

- HTTP: axios, request headers, timeouts, status codes and error message texts. Every fetch is an `Ok`/`Fail` input, and a thrown request is `Fail`.
- HTML and JSON parsing: cheerio's selectors and `JSON.parse`. The text each selector yields, the `twitter:data2` attribute, the JSON-LD outcome, the body text and Google's anchor hrefs are fields of the reply records.
- `encodeURIComponent`, and the API keys in query strings. The search, OMDB and Google inputs are keyed by the raw query.
- Floating point. `parseFloat` is reduced to its "is not NaN" test on text. `vote_average.toFixed(1)` is an input (`voteFixed`). A JSON-LD number is given as its `toString` rendering.
- Non-ASCII case folding. `toLowerCase` is ASCII only and `\w` is `[A-Za-z0-9_]`. JavaScript's full whitespace set is kept for `\s` and `trim`.
- The clock. `Date.now()` at the cache read and at the cache write are parameters (`requestedAt`, `storedAt`).
- NodeCache internals: periodic expiry checks, value cloning, statistics, events and key limits. The cache stores only movie records.
- Express routing, the static file server, rate limiting, CORS, dotenv, `app.listen` and logging. Concurrency between requests is also left out: the resolvers run one after the other, as the handler awaits them.
- The Letterboxd `movieUrl` is tracked in `Resolvers.Acquired`. The search tier fetches that address (server.js:247-249). After the page is acquired it is never read again, so it has no effect on the rating.
- The `/api/movie/:id` route parameter is never empty in Express. The `!id` branch is modelled anyway.
- `Patterns.ImdbRatingScript`'s own contract states only that a capture is non-empty and has no `"`. The leftmost-greedy characterisation is in the lemma `Patterns.ImdbRatingScriptSpec`.

=== FILE: cache.dfy ===
/** The in-memory result cache (server.js:7-8): a NodeCache with a standard
    time-to-live of 3600 seconds, holding the movie records the
    `/api/movie/:id` endpoint builds. An entry carries the instant it
    expires; a read at a later instant treats it as missing and deletes it.
    The clock is a parameter of every operation. */
module Cache {
  import opened Wrappers
  import opened Records

  /** A stored record and the instant, in milliseconds, after which it is stale. */
  datatype Entry = Entry(value: MovieInfo, expiresAt: int)

  /** `stdTTL: 3600`, in milliseconds. */
  const StdTtlMillis: nat := 3600 * 1000

  /** What a read at `now` finds under `key`: the value of an entry that
      has not yet expired (an entry is stale only once `expiresAt < now`). */
  function Live(entries: map<string, Entry>, key: string, now: int): (r: Option<MovieInfo>)
    ensures r.Some? <==> key in entries && now <= entries[key].expiresAt
    ensures r.Some? ==> r.value == entries[key].value
  {
    if key in entries && now <= entries[key].expiresAt then Some(entries[key].value) else None
  }

  /** The entries after a read of `key` at `now`: a stale entry is deleted,
      everything else stays. */
  function Purged(entries: map<string, Entry>, key: string, now: int): (r: map<string, Entry>)
    ensures Live(entries, key, now).Some? ==> r == entries
    ensures forall k :: k in r <==> k in entries && (k == key ==> now <= entries[k].expiresAt)
    ensures forall k :: k in r ==> r[k] == entries[k]
  {
    if key in entries && entries[key].expiresAt < now then entries - {key} else entries
  }

  /** Deleting a stale entry changes no later read. */
  lemma PurgeIsInvisible(entries: map<string, Entry>, key: string, now: int, later: int, k: string)
    requires now <= later
    ensures Live(Purged(entries, key, now), k, later) == Live(entries, k, later)
  {
  }

  /** A value stored at `storedAt` is found by every read up to
      `storedAt + StdTtlMillis` and by none after it. */
  lemma StoredUntilExpiry(entries: map<string, Entry>, key: string, v: MovieInfo, storedAt: int, now: int)
    ensures Live(entries[key := Entry(v, storedAt + StdTtlMillis)], key, now) ==
              if now <= storedAt + StdTtlMillis then Some(v) else None
  {
  }

  /** Storing under one key leaves what every other key finds. */
  lemma StoreLeavesOtherKeys(entries: map<string, Entry>, key: string, e: Entry, k: string, now: int)
    requires k != key
    ensures Live(entries[key := e], k, now) == Live(entries, k, now)
  {
  }

  /** The NodeCache instance: a key-value store whose entries expire. */
  class TtlCache {
    var entries: map<string, Entry>
    const ttlMillis: nat

    /** `new NodeCache({ stdTTL: 3600 })`. */
    constructor ()
      ensures entries == map[] && ttlMillis == StdTtlMillis
    {
      entries := map[];
      ttlMillis := StdTtlMillis;
    }

    /** What `Get(key, now)` would answer, without deleting anything. */
    function Lookup(key: string, now: int): Option<MovieInfo>
      reads this
    {
      Live(entries, key, now)
    }

    /** `cache.get(key)` at instant `now`: the live value, if any; a stale
        entry is deleted on the way. */
    method Get(key: string, now: int) returns (r: Option<MovieInfo>)
      modifies this
      ensures r == old(Lookup(key, now))
      ensures entries == Purged(old(entries), key, now)
    {
      if key in entries {
        var e := entries[key];
        if e.expiresAt < now {
          entries := entries - {key};
          r := None;
        } else {
          r := Some(e.value);
        }
      } else {
        r := None;
      }
    }

    /** `cache.set(key, value)` at instant `now`: stored with the standard
        time-to-live, replacing any earlier entry. */
    method Set(key: string, value: MovieInfo, now: int)
      modifies this
      ensures entries == old(entries)[key := Entry(value, now + ttlMillis)]
    {
      entries := entries[key := Entry(value, now + ttlMillis)];
    }
  }
}

=== FILE: chains.dfy ===
/** The rating-extraction fallback chains of the three scrapers
    (server.js:56-95, 142-190, 305-355). Each chain is an ordered list of
    probes over one fetched page; the first probe whose candidate passes its
    check supplies the rating, and a chain that runs dry gives `N/A`.
    What cheerio returns for each selector, and what `JSON.parse` makes of
    the JSON-LD script, are inputs: the page records below hold them. */
module Chains {
  import opened Wrappers
  import opened Text
  import opened Patterns

  /** The condition a selector's trimmed text must pass to be returned. */
  datatype Rule =
    | NonEmpty      // `if (rating)`
    | Numeric       // `rating && !isNaN(parseFloat(rating))`
    | ShortNumeric  // the same, and `rating.length < 5` in UTF-16 code units
    | HasPercent    // `score && score.includes('%')`

  predicate Accepts(rule: Rule, t: string) {
    match rule
    case NonEmpty => t != []
    case Numeric => t != [] && ParsesAsFloat(t)
    case ShortNumeric => t != [] && ParsesAsFloat(t) && Utf16Length(t) < 5
    case HasPercent => t != [] && '%' in t
  }

  /** The JavaScript value found at `aggregateRating.ratingValue` of a parsed
      JSON-LD object (`Absent` when either step of the path is missing). */
  datatype JsValue =
    | Absent
    | JsString(s: string)
    | JsNumber(rendered: string)  // the number as `toString` renders it
    | JsBool(b: bool)
    | JsObject
    | JsArray(joined: string)     // the elements as `toString` joins them

  /** JavaScript truthiness of the value. */
  predicate Truthy(v: JsValue) {
    match v
    case Absent => false
    case JsString(s) => s != []
    case JsNumber(r) => r != "0" && r != "NaN"
    case JsBool(b) => b
    case JsObject => true
    case JsArray(_) => true
  }

  /** `v.toString()` for a truthy value. */
  function Stringify(v: JsValue): string
    requires Truthy(v)
  {
    match v
    case Absent => ""
    case JsString(s) => s
    case JsNumber(r) => r
    case JsBool(_) => "true"
    case JsObject => "[object Object]"
    case JsArray(j) => j
  }

  /** The `script[type="application/ld+json"]` element of a page. */
  datatype JsonLd =
    | NoScript                   // no such element, or it is empty
    | Unparsable                 // `JSON.parse` throws on its content
    | Parsed(ratingValue: JsValue)

  // Each probe of a chain yields `Some(candidate)` when it fires and `None`
  // when the chain must go on to the next probe.

  /** A selector's text, trimmed, fires when it passes `rule`. */
  function SelectorProbe(text: string, rule: Rule): (r: Option<string>)
    ensures r.Some? <==> Accepts(rule, Trim(text))
    ensures r.Some? ==> r.value == Trim(text)
  {
    var t := Trim(text);
    if Accepts(rule, t) then Some(t) else None
  }

  /** The `twitter:data2` content: guarded by `includes('out of 5')`, then
      `([0-9.]+) out of 5`, the capture followed by `suffix`. The guard never
      rejects a text the pattern matches, so the probe fires exactly when the
      pattern matches. */
  function MetaProbe(content: Option<string>, suffix: string): (r: Option<string>)
    ensures r.Some? <==> content.Some? && ScoreOutOfFive(content.value).Some?
    ensures r.Some? ==> r.value == ScoreOutOfFive(content.value).value + suffix
  {
    GuardIsImplied(content);
    if content.Some? && content.value != [] && Contains(content.value, "out of 5") then
      match ScoreOutOfFive(content.value)
      case Some(v) => Some(v + suffix)
      case None => None
    else None
  }

  lemma GuardIsImplied(content: Option<string>)
    ensures content.Some? && ScoreOutOfFive(content.value).Some? ==>
              content.value != [] && Contains(content.value, "out of 5")
  {
    if content.Some? && ScoreOutOfFive(content.value).Some? {
      ScoreMatchImpliesGuard(content.value);
    }
  }

  /** The JSON-LD `aggregateRating.ratingValue`, stringified when truthy. */
  function LdProbe(ld: JsonLd): (r: Option<string>)
    ensures r.Some? <==> ld.Parsed? && Truthy(ld.ratingValue)
  {
    if ld.Parsed? && Truthy(ld.ratingValue) then Some(Stringify(ld.ratingValue)) else None
  }

  /** The page source's `aggregateRating` capture, when it parses as a number. */
  function ScriptProbe(html: string): (r: Option<string>)
    ensures r.Some? <==> ImdbRatingScript(html).Some? && ParsesAsFloat(ImdbRatingScript(html).value)
    ensures r.Some? ==> r == ImdbRatingScript(html) && r.value != [] && ParsesAsFloat(r.value)
  {
    match ImdbRatingScript(html)
    case Some(v) => if ParsesAsFloat(v) then Some(v) else None
    case None => None
  }

  /** The index of the first outcome at or after `i` that is a candidate. */
  function FirstFired(cs: seq<Option<string>>, i: nat): (r: Option<nat>)
    requires i <= |cs|
    ensures r.Some? ==> i <= r.value < |cs| && cs[r.value].Some?
    ensures r.Some? ==> forall j :: i <= j < r.value ==> cs[j].None?
    ensures r.None? ==> forall j :: i <= j < |cs| ==> cs[j].None?
    decreases |cs| - i
  {
    if i == |cs| then None
    else if cs[i].Some? then Some(i)
    else FirstFired(cs, i + 1)
  }

  /** A chain's answer: the first candidate, else `N/A`. */
  function Resolve(cs: seq<Option<string>>): string {
    match FirstFired(cs, 0)
    case Some(k) => cs[k].value
    case None => NotAvailable
  }

  /** The first probe to fire decides the answer. */
  lemma ResolveAt(cs: seq<Option<string>>, k: nat)
    requires k < |cs| && cs[k].Some?
    requires forall j :: 0 <= j < k ==> cs[j].None?
    ensures Resolve(cs) == cs[k].value
  {
    var r := FirstFired(cs, 0);
    assert r.Some?;
    assert !(r.value < k);
  }

  /** Four unchecked selectors tried right after a probe that missed: the
      first of them with non-empty text decides the answer. */
  lemma AlternativesResolve(cs: seq<Option<string>>, alts: seq<string>, k: nat)
    requires |cs| > 4 && |alts| == 4 && cs[0].None?
    requires && cs[1] == SelectorProbe(alts[0], NonEmpty) && cs[2] == SelectorProbe(alts[1], NonEmpty)
             && cs[3] == SelectorProbe(alts[2], NonEmpty) && cs[4] == SelectorProbe(alts[3], NonEmpty)
    requires k < 4 && Trim(alts[k]) != []
    requires forall j :: 0 <= j < k ==> Trim(alts[j]) == []
    ensures Resolve(cs) == Trim(alts[k])
  {
    forall j | 0 <= j < k + 1 ensures cs[j].None? {
      if j > 0 {
        assert cs[j] == SelectorProbe(alts[j - 1], NonEmpty);
      }
    }
    assert cs[k + 1] == SelectorProbe(alts[k], NonEmpty);
    ResolveAt(cs, k + 1);
  }

  /** A chain in which no probe fires answers `N/A`. */
  lemma ResolveExhausted(cs: seq<Option<string>>)
    requires forall j :: 0 <= j < |cs| ==> cs[j].None?
    ensures Resolve(cs) == NotAvailable
  {
    var r := FirstFired(cs, 0);
    assert r.None?;
  }

  /** The answer is `N/A` or the candidate of some probe. */
  lemma ResolveFrom(cs: seq<Option<string>>) returns (k: nat)
    ensures Resolve(cs) == NotAvailable || (k < |cs| && cs[k] == Some(Resolve(cs)))
  {
    k := 0;
    var r := FirstFired(cs, 0);
    if r.Some? {
      k := r.value;
    }
  }

  /** Once a probe among the first ones has fired, the probes after them
      are never consulted. */
  lemma ResolveStopsAtHit(cs: seq<Option<string>>, rest: seq<Option<string>>, rest': seq<Option<string>>, k: nat)
    requires k < |cs| && cs[k].Some?
    ensures Resolve(cs + rest) == Resolve(cs + rest')
  {
    var r := FirstFired(cs, 0);
    assert r.Some? && r.value <= k;
    ResolveAt(cs + rest, r.value);
    ResolveAt(cs + rest', r.value);
  }

  // ---------------------------------------------------------------------
  // IMDb (server.js:56-95)

  /** What the IMDb title page offers each probe. */
  datatype ImdbPage = ImdbPage(
    html: string,             // the page source
    specificClass: string,    // `.sc-d541859f-1.imUuxf`
    heroScore: string,        // the hero rating bar's score span
    buttonText: string,       // `.ipc-button__text span`
    aggregateScore: string,   // `.AggregateRatingButton__RatingScore-sc-1ll29m0-1`
    ratingValueSpan: string)  // `.ratingValue span[itemprop="ratingValue"]`

  /** The outcomes of the IMDb probes, in the order they are tried. */
  function ImdbOutcomes(p: ImdbPage): seq<Option<string>> {
    ImdbSelectorOutcomes(p) + [ScriptProbe(p.html)]
  }

  function ImdbSelectorOutcomes(p: ImdbPage): seq<Option<string>> {
    [ SelectorProbe(p.specificClass, Numeric), SelectorProbe(p.heroScore, Numeric),
      SelectorProbe(p.buttonText, ShortNumeric), SelectorProbe(p.aggregateScore, Numeric),
      SelectorProbe(p.ratingValueSpan, Numeric) ]
  }

  function ImdbChain(p: ImdbPage): string {
    Resolve(ImdbOutcomes(p))
  }

  /** Every IMDb probe checks `parseFloat`, so the chain gives `N/A` or a
      non-empty text that begins with a number. */
  lemma ImdbChainNumeric(p: ImdbPage)
    ensures var r := ImdbChain(p); r == NotAvailable || (r != [] && ParsesAsFloat(r))
  {
    var cs := ImdbOutcomes(p);
    var k := ResolveFrom(cs);
    if ImdbChain(p) != NotAvailable {
    }
  }

  /** A button text of five UTF-16 code units or more is passed over
      exactly as if the button were missing. */
  lemma ImdbLongButtonSkipped(p: ImdbPage)
    requires Utf16Length(Trim(p.buttonText)) >= 5
    ensures ImdbChain(p) == ImdbChain(p.(buttonText := ""))
  {
    var q := p.(buttonText := "");
    assert Trim("") == [];
    assert SelectorProbe(p.buttonText, ShortNumeric) == None == SelectorProbe(q.buttonText, ShortNumeric);
  }

  /** When some selector fires, the page source is never searched. */
  lemma ImdbSelectorsBeforeScript(p: ImdbPage, html: string, k: nat)
    requires k < 5 && ImdbSelectorOutcomes(p)[k].Some?
    ensures ImdbChain(p) == ImdbChain(p.(html := html))
  {
    var q := p.(html := html);
    assert ImdbSelectorOutcomes(p) == ImdbSelectorOutcomes(q);
    ResolveStopsAtHit(ImdbSelectorOutcomes(p), [ScriptProbe(p.html)], [ScriptProbe(html)], k);
  }

  /** With every selector empty, the rating is the pattern's capture from
      the page source, provided it parses as a number. */
  lemma ImdbScriptFallback(p: ImdbPage)
    requires Trim(p.specificClass) == [] && Trim(p.heroScore) == [] && Trim(p.buttonText) == []
    requires Trim(p.aggregateScore) == [] && Trim(p.ratingValueSpan) == []
    requires ImdbRatingScript(p.html).Some? && ParsesAsFloat(ImdbRatingScript(p.html).value)
    ensures ImdbChain(p) == ImdbRatingScript(p.html).value
  {
    var cs := ImdbOutcomes(p);
    assert cs[0].None? && cs[1].None? && cs[2].None? && cs[3].None? && cs[4].None?;
    ResolveAt(cs, 5);
  }

  /** A page whose selectors are all empty and whose source holds
      `aggregateRating":{"ratingValue":"8.7"` is rated `8.7`. */
  lemma ImdbScriptExample()
    ensures ImdbChain(ImdbPage(ScriptExamplePage, "", "", "", "", ""))
            == "8.7"
  {
    ImdbRatingScriptExample();
    EightSevenParses();
    assert Trim("") == [];
    ImdbScriptFallback(ImdbPage(ScriptExamplePage, "", "", "", "", ""));
  }

  lemma EightSevenParses()
    ensures ParsesAsFloat("8.7")
  {
    assert !IsSpace("8.7"[0]);
    assert TrimStart("8.7") == "8.7";
  }

  // ---------------------------------------------------------------------
  // Rotten Tomatoes (server.js:142-190)

  /** What the Rotten Tomatoes film page offers each probe. */
  datatype RtPage = RtPage(
    criticsScore: string,          // `rt-text[slot="criticsScore"]`, first match
    tooltipRating: string,         // `a.tooltip.display-rating`
    ratingsLink: string,           // `a[href$="/ratings/"]`
    averageRating: string,         // `.average-rating`
    histogramAverage: string,      // `.rating-histogram-descriptor .average-rating`
    twitterData2: Option<string>,  // `content` of `meta[name="twitter:data2"]`
    jsonLd: JsonLd,
    bodyText: string)

  /** The outcomes of the Rotten Tomatoes probes, in the order they are tried. */
  function RtOutcomes(p: RtPage): seq<Option<string>> {
    [ SelectorProbe(p.criticsScore, HasPercent), SelectorProbe(p.tooltipRating, NonEmpty),
      SelectorProbe(p.ratingsLink, NonEmpty), SelectorProbe(p.averageRating, NonEmpty),
      SelectorProbe(p.histogramAverage, NonEmpty), MetaProbe(p.twitterData2, "%"),
      LdProbe(p.jsonLd), OneDecimalOutOfFive(p.bodyText) ]
  }

  function RtChain(p: RtPage): string {
    Resolve(RtOutcomes(p))
  }

  /** A critics score containing `%` is the answer. */
  lemma RtCriticsWins(p: RtPage)
    requires '%' in Trim(p.criticsScore)
    ensures RtChain(p) == Trim(p.criticsScore)
  {
    var cs := RtOutcomes(p);
    assert Trim(p.criticsScore) != [];
    assert cs[0] == Some(Trim(p.criticsScore));
    ResolveAt(cs, 0);
  }

  /** A critics score without `%` counts for nothing. */
  lemma RtCriticsNeedsPercent(p: RtPage)
    requires '%' !in Trim(p.criticsScore)
    ensures RtChain(p) == RtChain(p.(criticsScore := ""))
  {
    assert Trim("") == [];
    assert RtOutcomes(p) == RtOutcomes(p.(criticsScore := ""));
  }

  /** The four alternative selectors tried after the critics score, in order. */
  function RtAlternatives(p: RtPage): seq<string> {
    [p.tooltipRating, p.ratingsLink, p.averageRating, p.histogramAverage]
  }

  /** The alternative selectors need no format: once the critics score is
      passed over, the first of them with non-empty text wins. */
  lemma RtAlternativeUnchecked(p: RtPage, k: nat)
    requires '%' !in Trim(p.criticsScore)
    requires k < 4 && Trim(RtAlternatives(p)[k]) != []
    requires forall j :: 0 <= j < k ==> Trim(RtAlternatives(p)[j]) == []
    ensures RtChain(p) == Trim(RtAlternatives(p)[k])
  {
    AlternativesResolve(RtOutcomes(p), RtAlternatives(p), k);
  }

  /** The metadata score comes back with `%` appended. */
  lemma RtMetaAppendsPercent(p: RtPage)
    requires '%' !in Trim(p.criticsScore)
    requires Trim(p.tooltipRating) == [] && Trim(p.ratingsLink) == []
    requires Trim(p.averageRating) == [] && Trim(p.histogramAverage) == []
    requires p.twitterData2.Some? && ScoreOutOfFive(p.twitterData2.value).Some?
    ensures RtChain(p) == ScoreOutOfFive(p.twitterData2.value).value + "%"
  {
    ResolveAt(RtOutcomes(p), 5);
  }

  // ---------------------------------------------------------------------
  // Letterboxd (server.js:305-355)

  /** What the Letterboxd film page offers each probe. */
  datatype LbPage = LbPage(
    html: string,                  // the page source; only its truthiness is read
    tooltipRating: string,         // `a.tooltip.display-rating`
    displayRating: string,         // `.display-rating`
    ratingsLink: string,           // `a[href$="/ratings/"]`
    averageRating: string,         // `.average-rating`
    histogramAverage: string,      // `.rating-histogram-descriptor .average-rating`
    twitterData2: Option<string>,  // `content` of `meta[name="twitter:data2"]`
    jsonLd: JsonLd,
    bodyText: string)

  /** The outcomes of the Letterboxd probes, in the order they are tried. */
  function LbOutcomes(p: LbPage): seq<Option<string>> {
    [ SelectorProbe(p.tooltipRating, NonEmpty), SelectorProbe(p.displayRating, NonEmpty),
      SelectorProbe(p.ratingsLink, NonEmpty), SelectorProbe(p.averageRating, NonEmpty),
      SelectorProbe(p.histogramAverage, NonEmpty), MetaProbe(p.twitterData2, ""),
      LdProbe(p.jsonLd), OneDecimalOutOfFive(p.bodyText) ]
  }

  function LbChain(p: LbPage): string {
    Resolve(LbOutcomes(p))
  }

  /** Every selector of the page found nothing. */
  predicate LbSelectorsEmpty(p: LbPage) {
    && Trim(p.tooltipRating) == [] && Trim(p.displayRating) == []
    && Trim(p.ratingsLink) == [] && Trim(p.averageRating) == []
    && Trim(p.histogramAverage) == []
  }

  /** A non-empty tooltip rating is the answer. */
  lemma LbTooltipWins(p: LbPage)
    requires Trim(p.tooltipRating) != []
    ensures LbChain(p) == Trim(p.tooltipRating)
  {
    ResolveAt(LbOutcomes(p), 0);
  }

  /** The four alternative selectors tried after the tooltip, in order. */
  function LbAlternatives(p: LbPage): seq<string> {
    [p.displayRating, p.ratingsLink, p.averageRating, p.histogramAverage]
  }

  /** Once the tooltip is empty, the first alternative selector with
      non-empty text wins, unchecked. */
  lemma LbAlternativeWins(p: LbPage, k: nat)
    requires Trim(p.tooltipRating) == []
    requires k < 4 && Trim(LbAlternatives(p)[k]) != []
    requires forall j :: 0 <= j < k ==> Trim(LbAlternatives(p)[j]) == []
    ensures LbChain(p) == Trim(LbAlternatives(p)[k])
  {
    AlternativesResolve(LbOutcomes(p), LbAlternatives(p), k);
  }

  /** The metadata score is returned as captured, without `%`. */
  lemma LbMetaVerbatim(p: LbPage)
    requires LbSelectorsEmpty(p)
    requires p.twitterData2.Some? && ScoreOutOfFive(p.twitterData2.value).Some?
    ensures LbChain(p) == ScoreOutOfFive(p.twitterData2.value).value
    ensures '%' !in LbChain(p)
  {
    var v := ScoreOutOfFive(p.twitterData2.value).value;
    assert v + "" == v;
    ResolveAt(LbOutcomes(p), 5);
  }

  /** A truthy JSON-LD rating is returned as its string form. */
  lemma LbJsonLdStringified(p: LbPage)
    requires LbSelectorsEmpty(p)
    requires MetaProbe(p.twitterData2, "").None?
    requires p.jsonLd.Parsed? && Truthy(p.jsonLd.ratingValue)
    ensures LbChain(p) == Stringify(p.jsonLd.ratingValue)
  {
    ResolveAt(LbOutcomes(p), 6);
  }

  /** A script that fails to parse is passed over like a missing one. */
  lemma LbUnparsableLikeMissing(p: LbPage)
    ensures LbChain(p.(jsonLd := Unparsable)) == LbChain(p.(jsonLd := NoScript))
  {
    assert LbOutcomes(p.(jsonLd := Unparsable)) == LbOutcomes(p.(jsonLd := NoScript));
  }

  /** The body scan reads one decimal only: a page whose one trace of a
      rating is the body text `3.85 out of 5` gives `N/A`. */
  lemma LbBodyTwoDecimalsMissed()
    ensures LbChain(LbPage("<html>", "", "", "", "", "", None, NoScript, "3.85 out of 5")) == NotAvailable
  {
    TwoDecimalsOnlyMatchTheWidePattern();
    assert Trim("") == [];
    var cs := LbOutcomes(LbPage("<html>", "", "", "", "", "", None, NoScript, "3.85 out of 5"));
    assert cs[7].None?;
    ResolveExhausted(cs);
  }

  /** The Rotten Tomatoes and Letterboxd chains differ only in their first
      two selectors and in the `%` put after the metadata score. */
  lemma RtMetaDiffersByPercent(p: RtPage, q: LbPage)
    requires '%' !in Trim(p.criticsScore) && Trim(p.tooltipRating) == []
    requires LbSelectorsEmpty(q)
    requires p.ratingsLink == q.ratingsLink && p.averageRating == q.averageRating
    requires p.histogramAverage == q.histogramAverage
    requires p.twitterData2 == q.twitterData2 && p.jsonLd == q.jsonLd && p.bodyText == q.bodyText
    requires p.twitterData2.Some? && ScoreOutOfFive(p.twitterData2.value).Some?
    ensures RtChain(p) == LbChain(q) + "%"
  {
    RtMetaAppendsPercent(p);
    LbMetaVerbatim(q);
  }
}

=== FILE: handler.dfy ===
/** The `/api/movie/:id` endpoint (server.js:363-445): look the id up in
    the cache, otherwise fetch the TMDB details, resolve the three scraped
    ratings, assemble the record, store it and answer with it. */
module Handler {
  import opened Wrappers
  import opened Upstream
  import opened Records
  import opened Resolvers
  import opened Cache
  import opened Patterns

  /** The endpoint's answers: 400, a record, or 500. */
  datatype MovieResponse = InvalidId | Served(info: MovieInfo) | DetailsFailed

  const KeyPrefix: string := "movie_id:"

  /** The cache key of a movie id (server.js:368). */
  function CacheKey(id: string): (key: string)
    ensures |key| == |KeyPrefix| + |id|
    ensures key[..|KeyPrefix|] == KeyPrefix && key[|KeyPrefix|..] == id
  {
    KeyPrefix + id
  }

  /** Distinct ids never share a cache entry. */
  lemma CacheKeyInjective(a: string, b: string)
    requires CacheKey(a) == CacheKey(b)
    ensures a == b
  {
    calc {
      a;
      CacheKey(a)[|KeyPrefix|..];
      CacheKey(b)[|KeyPrefix|..];
      b;
    }
  }

  /** The record built from fresh details: each resolver catches its own
      errors, so every rating slot holds what its resolver answered. */
  function FreshRecord(web: Web, details: MovieDetails): (info: MovieInfo)
    ensures info.title == details.title
    ensures info.ratings.imdb == ImdbRating(web, details.title)
    ensures info.ratings.rottenTomatoes == RtRating(web, details.title)
    ensures info.ratings.letterboxd == LetterboxdRatingOf(web, details.title)
  {
    AssembleRecord(details,
                   Ok(ImdbRating(web, details.title)),
                   Ok(RtRating(web, details.title)),
                   Ok(LetterboxdRatingOf(web, details.title)))
  }

  /** A fresh record's IMDb slot is `N/A` or number-like, and its year and
      plot are never empty. */
  lemma FreshRecordShape(web: Web, details: MovieDetails)
    ensures var info := FreshRecord(web, details);
            && (info.ratings.imdb == NotAvailable || (info.ratings.imdb != [] && ParsesAsFloat(info.ratings.imdb)))
            && info.year != [] && info.plot != []
  {
    ImdbRatingNumeric(web, details.title);
  }

  /** Resolves the three scraped ratings for the details' title, one after
      the other, and assembles the record (server.js:397-435). */
  method BuildRecord(web: Web, details: MovieDetails) returns (info: MovieInfo)
    ensures info == FreshRecord(web, details)
  {
    var imdb := ImdbRating(web, details.title);
    var rt := RtRating(web, details.title);
    var lb := LetterboxdRating(web, details.title);
    info := AssembleRecord(details, Ok(imdb), Ok(rt), Ok(lb));
  }

  /** A cache miss: fetch the TMDB details of `id`; on success build the
      record and store it under the id's key at `storedAt`, on failure
      answer 500 and store nothing (server.js:375-444). */
  method Refresh(cache: TtlCache, web: Web, id: string, storedAt: int) returns (response: MovieResponse)
    modifies cache
    ensures web.tmdbDetails(id).Fail? ==> response == DetailsFailed && cache.entries == old(cache.entries)
    ensures web.tmdbDetails(id).Ok? ==>
              && response == Served(FreshRecord(web, web.tmdbDetails(id).body))
              && cache.entries == old(cache.entries)[CacheKey(id) := Entry(FreshRecord(web, web.tmdbDetails(id).body),
                                                                           storedAt + cache.ttlMillis)]
  {
    match web.tmdbDetails(id)
    case Fail =>
      response := DetailsFailed;
    case Ok(details) =>
      var info := BuildRecord(web, details);
      var key := CacheKey(id);
      cache.Set(key, info, storedAt);
      response := Served(info);
  }

  /** One request for `id`. The cache is read at `requestedAt` and written
      at `storedAt`; `fetched` tells whether TMDB was asked. A cached record
      is answered as it is, a failed fetch stores nothing. */
  method HandleMovie(cache: TtlCache, web: Web, id: string, requestedAt: int, storedAt: int)
    returns (response: MovieResponse, fetched: bool)
    modifies cache
    ensures id == [] ==> response == InvalidId && !fetched && cache.entries == old(cache.entries)
    ensures id != [] && old(cache.Lookup(CacheKey(id), requestedAt)).Some? ==>
              && response == Served(old(cache.Lookup(CacheKey(id), requestedAt)).value)
              && !fetched
              && cache.entries == old(cache.entries)
    ensures id != [] && old(cache.Lookup(CacheKey(id), requestedAt)).None? ==>
              && fetched
              && (web.tmdbDetails(id).Fail? ==>
                    && response == DetailsFailed
                    && cache.entries == Purged(old(cache.entries), CacheKey(id), requestedAt))
              && (web.tmdbDetails(id).Ok? ==>
                    && response == Served(FreshRecord(web, web.tmdbDetails(id).body))
                    && cache.entries == Purged(old(cache.entries), CacheKey(id), requestedAt)
                                          [CacheKey(id) := Entry(FreshRecord(web, web.tmdbDetails(id).body),
                                                                 storedAt + cache.ttlMillis)])
  {
    if id == [] {
      return InvalidId, false;
    }
    var key := CacheKey(id);
    var cached := cache.Get(key, requestedAt);
    if cached.Some? {
      return Served(cached.value), false;
    }
    fetched := true;
    response := Refresh(cache, web, id, storedAt);
  }

  /** Two requests for the same id on a cold cache. After a successful first
      request, the second is answered from the cache with the same record
      until the entry expires, and refetched after; after a failed first
      request nothing was stored, so the second asks TMDB again. */
  method RequestTwice(cache: TtlCache, web: Web, id: string,
                      firstAt: int, storedAt: int, secondAt: int, restoredAt: int)
    returns (first: MovieResponse, second: MovieResponse, refetched: bool)
    requires id != [] && cache.Lookup(CacheKey(id), firstAt).None?
    modifies cache
    ensures web.tmdbDetails(id).Ok? ==> first.Served? && (refetched <==> secondAt > storedAt + cache.ttlMillis)
    ensures web.tmdbDetails(id).Ok? && secondAt <= storedAt + cache.ttlMillis ==> second == first
    ensures web.tmdbDetails(id).Fail? ==> first == DetailsFailed && second == DetailsFailed && refetched
  {
    var fetched;
    first, fetched := HandleMovie(cache, web, id, firstAt, storedAt);
    second, refetched := HandleMovie(cache, web, id, secondAt, restoredAt);
  }
}

=== FILE: patterns.dfy ===
/** Hand-written recognisers for the few regular expressions and number
    checks the rating chains apply. Each search returns the LEFTMOST match,
    as `String.prototype.match` without the `g` flag does. */
module Patterns {
  import opened Wrappers
  import opened Text

  /** `!isNaN(parseFloat(s))`: after leading whitespace and an optional sign,
      the text begins with `Infinity`, a digit, or a `.` followed by a digit. */
  predicate ParsesAsFloat(s: string) {
    var t := TrimStart(s);
    var u := if |t| > 0 && (t[0] == '+' || t[0] == '-') then t[1..] else t;
    StartsAt(u, 0, "Infinity") || (|u| > 0 && IsDigit(u[0])) || (|u| > 1 && u[0] == '.' && IsDigit(u[1]))
  }

  /** The sentinel text every resolver returns when it has no rating. */
  const NotAvailable: string := "N/A"

  lemma NotAvailableIsNotNumeric()
    ensures !ParsesAsFloat(NotAvailable)
  {
    TrimStartUnique(NotAvailable, NotAvailable);
  }

  /** `parseFloat` skips leading whitespace before the number. */
  lemma ParsesAsFloatSkipsSpace()
    ensures ParsesAsFloat(" 7.5")
  {
    TrimStartUnique(" 7.5", "7.5");
  }

  // ---------------------------------------------------------------------
  // `([0-9.]+) out of 5`

  const OutOfFive: string := " out of 5"

  predicate IsDigitOrDot(c: char) { IsDigit(c) || c == '.' }

  /** Where the `[0-9.]` run that begins at `i` ends. */
  function DigitDotRunEnd(s: string, i: nat): (e: nat)
    requires i <= |s|
    ensures i <= e <= |s|
    ensures forall k :: i <= k < e ==> IsDigitOrDot(s[k])
    ensures e < |s| ==> !IsDigitOrDot(s[e])
    decreases |s| - i
  {
    if i == |s| || !IsDigitOrDot(s[i]) then i else DigitDotRunEnd(s, i + 1)
  }

  /** `([0-9.]+) out of 5` matches at `i`. The greedy `+` takes the whole
      run; giving characters back cannot help, since the next one would then
      be `[0-9.]` and not the space the literal needs. */
  predicate ScoreOutOfFiveAt(s: string, i: nat) {
    i < |s| && IsDigitOrDot(s[i]) && StartsAt(s, DigitDotRunEnd(s, i), OutOfFive)
  }

  function FindScoreOutOfFive(s: string, i: nat): (r: Option<nat>)
    ensures r.Some? ==> i <= r.value && ScoreOutOfFiveAt(s, r.value)
    ensures r.Some? ==> forall j :: i <= j < r.value ==> !ScoreOutOfFiveAt(s, j)
    ensures r.None? ==> forall j :: i <= j ==> !ScoreOutOfFiveAt(s, j)
    decreases |s| - i
  {
    if i >= |s| then None
    else if ScoreOutOfFiveAt(s, i) then Some(i)
    else FindScoreOutOfFive(s, i + 1)
  }

  /** Group 1 of `s.match(/([0-9.]+) out of 5/)`: a non-empty run of digits
      and dots that `s` holds right before ` out of 5`. */
  function ScoreOutOfFive(s: string): (r: Option<string>)
    ensures r.Some? ==> r.value != [] && forall c :: c in r.value ==> IsDigitOrDot(c)
    ensures r.Some? ==> Contains(s, r.value + OutOfFive)
    ensures r.None? <==> forall j :: !ScoreOutOfFiveAt(s, j)
    ensures r.Some? ==> exists i: nat :: && ScoreOutOfFiveAt(s, i)
                                    && (forall j: nat :: j < i ==> !ScoreOutOfFiveAt(s, j))
                                    && r.value == s[i..DigitDotRunEnd(s, i)]
  {
    match FindScoreOutOfFive(s, 0)
    case None => None
    case Some(i) =>
      var e := DigitDotRunEnd(s, i);
      var v := s[i..e];
      assert s[i..e + |OutOfFive|] == v + OutOfFive;
      assert StartsAt(s, i, v + OutOfFive);
      Some(v)
  }

  /** The `includes('out of 5')` guard in front of the match adds nothing:
      whenever the pattern matches, the text contains `out of 5`. */
  lemma ScoreMatchImpliesGuard(s: string)
    requires ScoreOutOfFive(s).Some?
    ensures Contains(s, "out of 5")
  {
    var i: nat :| ScoreOutOfFiveAt(s, i);
    GuardAt(s, i);
  }

  lemma GuardAt(s: string, i: nat)
    requires ScoreOutOfFiveAt(s, i)
    ensures Contains(s, "out of 5")
  {
    var k := DigitDotRunEnd(s, i) + 1;
    assert s[k..k + 8] == OutOfFive[1..];
    assert StartsAt(s, k, "out of 5");
  }

  // ---------------------------------------------------------------------
  // `([0-9]\.[0-9]) out of 5`

  /** `([0-9]\.[0-9]) out of 5` matches at `i`. */
  predicate OneDecimalOutOfFiveAt(s: string, i: nat) {
    i + 3 <= |s| && IsDigit(s[i]) && s[i + 1] == '.' && IsDigit(s[i + 2]) && StartsAt(s, i + 3, OutOfFive)
  }

  function FindOneDecimalOutOfFive(s: string, i: nat): (r: Option<nat>)
    ensures r.Some? ==> i <= r.value && OneDecimalOutOfFiveAt(s, r.value)
    ensures r.Some? ==> forall j :: i <= j < r.value ==> !OneDecimalOutOfFiveAt(s, j)
    ensures r.None? ==> forall j :: i <= j ==> !OneDecimalOutOfFiveAt(s, j)
    decreases |s| - i
  {
    if i >= |s| then None
    else if OneDecimalOutOfFiveAt(s, i) then Some(i)
    else FindOneDecimalOutOfFive(s, i + 1)
  }

  /** Group 1 of `s.match(/([0-9]\.[0-9]) out of 5/)`: exactly one digit,
      a dot and one digit, found right before ` out of 5`. */
  function OneDecimalOutOfFive(s: string): (r: Option<string>)
    ensures r.Some? ==> |r.value| == 3 && IsDigit(r.value[0]) && r.value[1] == '.' && IsDigit(r.value[2])
    ensures r.Some? ==> Contains(s, r.value + OutOfFive)
    ensures r.None? <==> forall j :: !OneDecimalOutOfFiveAt(s, j)
    ensures r.Some? ==> exists i: nat :: && OneDecimalOutOfFiveAt(s, i)
                                    && (forall j: nat :: j < i ==> !OneDecimalOutOfFiveAt(s, j))
                                    && r.value == s[i..i + 3]
  {
    match FindOneDecimalOutOfFive(s, 0)
    case None => None
    case Some(i) =>
      var v := s[i..i + 3];
      assert s[i..i + 3 + |OutOfFive|] == v + OutOfFive;
      assert StartsAt(s, i, v + OutOfFive);
      Some(v)
  }

  /** A two-decimal score such as `3.85 out of 5` is invisible to the
      one-decimal scan, while the `[0-9.]+` pattern reads all of it. */
  lemma TwoDecimalsOnlyMatchTheWidePattern()
    ensures OneDecimalOutOfFive("3.85 out of 5").None?
    ensures ScoreOutOfFive("3.85 out of 5") == Some("3.85")
  {
    var s := "3.85 out of 5";
    assert s[4..13] == OutOfFive;
    forall j: nat ensures !OneDecimalOutOfFiveAt(s, j) {
      if j == 0 { assert s[3] != ' '; } else if j == 1 { assert !IsDigit(s[1]); }
    }
    assert DigitDotRunEnd(s, 4) == 4;
    assert DigitDotRunEnd(s, 0) == 4;
    assert ScoreOutOfFiveAt(s, 0);
    assert s[0..4] == "3.85";
  }

  // ---------------------------------------------------------------------
  // `url\?q=([^&]+)` on a Google result link

  const UrlQuery: string := "url?q="

  /** `url\?q=([^&]+)` matches at `i`: the literal, then at least one
      character other than `&`. */
  predicate UrlQueryAt(s: string, i: nat) {
    StartsAt(s, i, UrlQuery) && i + 6 < |s| && s[i + 6] != '&'
  }

  function FindUrlQuery(s: string, i: nat): (r: Option<nat>)
    ensures r.Some? ==> i <= r.value && UrlQueryAt(s, r.value)
    ensures r.Some? ==> forall j :: i <= j < r.value ==> !UrlQueryAt(s, j)
    ensures r.None? ==> forall j :: i <= j ==> !UrlQueryAt(s, j)
    decreases |s| - i
  {
    if i >= |s| then None
    else if UrlQueryAt(s, i) then Some(i)
    else FindUrlQuery(s, i + 1)
  }

  /** `href.match(/url\?q=([^&]+)/)?.[1] || href`: the target of a Google
      redirect link up to the first `&`, or the whole href when it is not
      one. The value is not URL-decoded. */
  function UnwrapGoogleHref(href: string): (r: string)
    ensures (forall j: nat :: !UrlQueryAt(href, j)) ==> r == href
    ensures forall i: nat :: UrlQueryAt(href, i) && (forall j: nat :: j < i ==> !UrlQueryAt(href, j)) ==>
      r == href[i + 6..UntilChar(href, i + 6, '&')]
    ensures (exists j: nat :: UrlQueryAt(href, j)) ==> r != [] && '&' !in r
  {
    match FindUrlQuery(href, 0)
    case None => href
    case Some(i) =>
      var e := UntilChar(href, i + 6, '&');
      var v := href[i + 6..e];
      assert '&' !in v by {
        forall k | 0 <= k < |v| ensures v[k] != '&' { assert v[k] == href[i + 6 + k]; }
      }
      v
  }

  /** A Google redirect link yields the Letterboxd address it wraps. */
  lemma UnwrapGoogleHrefExample()
    ensures UnwrapGoogleHref("/" + UrlQuery + "https://letterboxd.com/film/heat/" + "&sa=U")
         == "https://letterboxd.com/film/heat/"
  {
    var target := "https://letterboxd.com/film/heat/";
    var h := "/" + UrlQuery + target + "&sa=U";
    var e := 7 + |target|;
    assert h[1..7] == UrlQuery;
    assert h[7..e] == target;
    assert h[e] == '&';
    assert h[7] == target[0] == 'h';
    assert UrlQueryAt(h, 1);
    assert !UrlQueryAt(h, 0);
    assert '&' !in target;
    assert forall k :: 7 <= k < e ==> h[k] == target[k - 7];
    assert UntilChar(h, 7, '&') == e;
  }

  // ---------------------------------------------------------------------
  // `aggregateRating"[^>]*"ratingValue":\s*"([^"]+)` on the IMDb page source

  const AggregateRatingKey: string := "aggregateRating\""
  const RatingValueKey: string := "\"ratingValue\":"

  /** The tail `"ratingValue":\s*"([^"]+)` matches at `j`: the key, any
      whitespace, a quote, then at least one character that is not a quote. */
  predicate RatingValueAt(s: string, j: nat) {
    && StartsAt(s, j, RatingValueKey)
    && var m := SpaceRunEnd(s, j + |RatingValueKey|);
       m + 1 < |s| && s[m] == '"' && s[m + 1] != '"'
  }

  /** The whole pattern matches with the head at `i` and the tail at `j`:
      `[^>]*` spans from the end of the head to `j` without meeting `>`. */
  predicate ImdbMatchAt(s: string, i: nat, j: nat) {
    && StartsAt(s, i, AggregateRatingKey)
    && i + |AggregateRatingKey| <= j <= UntilChar(s, i + |AggregateRatingKey|, '>')
    && RatingValueAt(s, j)
  }

  /** The group the pattern captures once its tail sits at `j`: the run of
      non-quote characters after the opening quote. */
  function RatingCapture(s: string, j: nat): (v: string)
    requires RatingValueAt(s, j)
    ensures v != [] && '"' !in v
    ensures var m := SpaceRunEnd(s, j + |RatingValueKey|);
            && m + 1 + |v| <= |s| && v == s[m + 1..m + 1 + |v|]
            && (m + 1 + |v| == |s| || s[m + 1 + |v|] == '"')
  {
    var m := SpaceRunEnd(s, j + |RatingValueKey|);
    var e := UntilChar(s, m + 1, '"');
    var v := s[m + 1..e];
    assert '"' !in v by {
      forall k | 0 <= k < |v| ensures v[k] != '"' { assert v[k] == s[m + 1 + k]; }
    }
    v
  }

  /** The LAST tail position in `[lo, hi]`: a greedy `[^>]*` backtracks
      from the longest span, so the rightmost tail it can reach wins. */
  function LastRatingValue(s: string, lo: nat, hi: nat): (r: Option<nat>)
    ensures r.Some? ==> lo <= r.value <= hi && RatingValueAt(s, r.value)
    ensures r.Some? ==> forall j :: r.value < j <= hi ==> !RatingValueAt(s, j)
    ensures r.None? ==> forall j :: lo <= j <= hi ==> !RatingValueAt(s, j)
    decreases hi
  {
    if hi < lo then None
    else if RatingValueAt(s, hi) then Some(hi)
    else if hi == lo then None
    else LastRatingValue(s, lo, hi - 1)
  }

  /** The tail a match whose head sits at `i` uses, if there is one. */
  function GreedyTail(s: string, i: nat): (r: Option<nat>)
    requires StartsAt(s, i, AggregateRatingKey)
    ensures r.Some? ==> ImdbMatchAt(s, i, r.value)
    ensures r.Some? ==> forall j: nat :: ImdbMatchAt(s, i, j) ==> j <= r.value
    ensures r.None? ==> forall j: nat :: !ImdbMatchAt(s, i, j)
  {
    var lo := i + |AggregateRatingKey|;
    LastRatingValue(s, lo, UntilChar(s, lo, '>'))
  }

  predicate HeadMatches(s: string, i: nat) {
    StartsAt(s, i, AggregateRatingKey) && GreedyTail(s, i).Some?
  }

  function FindImdbMatch(s: string, i: nat): (r: Option<nat>)
    ensures r.Some? ==> i <= r.value && HeadMatches(s, r.value)
    ensures r.Some? ==> forall k :: i <= k < r.value ==> !HeadMatches(s, k)
    ensures r.None? ==> forall k :: i <= k ==> !HeadMatches(s, k)
    decreases |s| - i
  {
    if i >= |s| then None
    else if HeadMatches(s, i) then Some(i)
    else FindImdbMatch(s, i + 1)
  }

  /** A head position carries a match exactly when `HeadMatches` holds. */
  lemma HeadMatchesIff(s: string, i: nat)
    ensures HeadMatches(s, i) <==> exists j: nat :: ImdbMatchAt(s, i, j)
  {
    if HeadMatches(s, i) {
      assert ImdbMatchAt(s, i, GreedyTail(s, i).value);
    }
  }

  lemma NoHeadNoMatch(s: string)
    requires FindImdbMatch(s, 0).None?
    ensures forall i: nat, j: nat :: !ImdbMatchAt(s, i, j)
  {
    forall i: nat, j: nat ensures !ImdbMatchAt(s, i, j) { HeadMatchesIff(s, i); }
  }

  lemma LeftmostGreedy(s: string, i: nat)
    requires FindImdbMatch(s, 0) == Some(i)
    ensures ImdbMatchAt(s, i, GreedyTail(s, i).value)
    ensures forall i': nat, j': nat :: ImdbMatchAt(s, i', j') ==>
              i < i' || (i == i' && j' <= GreedyTail(s, i).value)
  {
    forall i': nat, j': nat | ImdbMatchAt(s, i', j')
      ensures i < i' || (i == i' && j' <= GreedyTail(s, i).value)
    {
      HeadMatchesIff(s, i');
    }
  }

  /** Group 1 of `html.match(/aggregateRating"[^>]*"ratingValue":\s*"([^"]+)/)`:
      a non-empty run of non-quote characters; `ImdbRatingScriptSpec` says
      which match it is. */
  function ImdbRatingScript(s: string): (r: Option<string>)
    ensures r.Some? ==> r.value != [] && '"' !in r.value
  {
    match FindImdbMatch(s, 0)
    case None => None
    case Some(i) => Some(RatingCapture(s, GreedyTail(s, i).value))
  }

  /** The capture comes from the match with the leftmost head and, for that
      head, the rightmost tail; there is none exactly when the pattern
      matches nowhere. */
  lemma ImdbRatingScriptSpec(s: string)
    ensures ImdbRatingScript(s).None? <==> forall i: nat, j: nat :: !ImdbMatchAt(s, i, j)
    ensures ImdbRatingScript(s).Some? ==>
              exists i: nat, j: nat ::
                && ImdbMatchAt(s, i, j) && ImdbRatingScript(s).value == RatingCapture(s, j)
                && forall i': nat, j': nat :: ImdbMatchAt(s, i', j') ==> i < i' || (i == i' && j' <= j)
  {
    match FindImdbMatch(s, 0)
    case None =>
      NoHeadNoMatch(s);
    case Some(i) =>
      LeftmostGreedy(s, i);
  }

  /** A page source holding `aggregateRating":{"ratingValue":"8.7"`. */
  const ScriptExamplePage: string := AggregateRatingKey + ":{" + RatingValueKey + "\"8.7\""

  lemma ScriptExampleLayout()
    ensures var s := ScriptExamplePage;
            && |s| == 37 && s[..16] == AggregateRatingKey && s[18..32] == RatingValueKey
            && s[32] == '"' && s[33..36] == "8.7" && s[36] == '"' && '>' !in s
  {
    var s := ScriptExamplePage;
    assert s[33] == '8' && s[34] == '.' && s[35] == '7';
  }

  /** The only tail in the example sits at 18, and nothing stops `[^>]*`. */
  lemma ScriptExampleTail()
    ensures UntilChar(ScriptExamplePage, 16, '>') == 37
    ensures LastRatingValue(ScriptExamplePage, 16, 37) == Some(18)
  {
    var s := ScriptExamplePage;
    ScriptExampleLayout();
    assert SpaceRunEnd(s, 32) == 32;
    assert RatingValueAt(s, 18);
    forall j | 18 < j <= 37 ensures !RatingValueAt(s, j) {
      if j <= 23 { assert s[j] == RatingValueKey[j - 18]; }
    }
  }

  /** A page whose source holds `aggregateRating":{"ratingValue":"8.7"`
      yields `8.7` through the pattern. */
  lemma ImdbRatingScriptExample()
    ensures ImdbRatingScript(ScriptExamplePage) == Some("8.7")
  {
    var s := ScriptExamplePage;
    ScriptExampleLayout();
    ScriptExampleTail();
    assert HeadMatches(s, 0);
    assert SpaceRunEnd(s, 32) == 32;
    assert UntilChar(s, 33, '"') == 36;
  }
}

=== FILE: records.dfy ===
/** The JSON records the two endpoints answer with: the movie record built
    by `/api/movie/:id` (server.js:384-435) and the result list of
    `/api/search` (server.js:459-477). */
module Records {
  import opened Wrappers
  import opened Text
  import opened Patterns
  import opened Upstream

  // ---------------------------------------------------------------------
  // Fields

  /** `s.split('-')[0]`: the text before the first `-`, or all of `s`. */
  function BeforeDash(s: string): (r: string)
    ensures |r| <= |s| && r == s[..|r|]
    ensures '-' !in r
    ensures |r| < |s| ==> s[|r|] == '-'
  {
    var e := UntilChar(s, 0, '-');
    assert '-' !in s[..e] by {
      forall k | 0 <= k < e ensures s[..e][k] != '-' { }
    }
    s[..e]
  }

  const Unknown: string := "Unknown"

  /** `release_date?.split('-')[0] || 'Unknown'`, the record's year (server.js:425). */
  function DetailYear(releaseDate: Option<string>): (year: string)
    ensures year == Unknown || (releaseDate.Some? && year != [] && '-' !in year
                                && |year| <= |releaseDate.value| && year == releaseDate.value[..|year|])
    ensures year == Unknown <==> releaseDate.None? || BeforeDash(releaseDate.value) == [] ||
                                 BeforeDash(releaseDate.value) == Unknown
  {
    if releaseDate.None? then Unknown
    else
      var y := BeforeDash(releaseDate.value);
      if y == [] then Unknown else y
  }

  /** `release_date ? release_date.split('-')[0] : 'Unknown'`, a search
      entry's year (server.js:469). */
  function SearchYear(releaseDate: Option<string>): (year: string)
    ensures releaseDate.None? || releaseDate.value == [] ==> year == Unknown
    ensures releaseDate.Some? && releaseDate.value != [] ==> year == BeforeDash(releaseDate.value)
  {
    if releaseDate.None? || releaseDate.value == [] then Unknown else BeforeDash(releaseDate.value)
  }

  /** The two year rules disagree exactly on a date that starts with `-`:
      the record says `Unknown` where the search entry has an empty year. */
  lemma YearRulesDiffer(releaseDate: Option<string>)
    ensures DetailYear(releaseDate) != SearchYear(releaseDate) <==>
              releaseDate.Some? && releaseDate.value != [] && releaseDate.value[0] == '-'
  {
    if releaseDate.Some? && releaseDate.value != [] {
      var y := BeforeDash(releaseDate.value);
      if releaseDate.value[0] == '-' {
        assert |y| == 0;
      } else {
        assert |y| > 0;
      }
    }
  }

  /** A TMDB date yields its four-digit year. */
  lemma YearExample()
    ensures DetailYear(Some("1999-03-31")) == "1999"
    ensures SearchYear(Some("1999-03-31")) == "1999"
  {
    var d := "1999-03-31";
    assert UntilChar(d, 4, '-') == 4;
    assert UntilChar(d, 0, '-') == 4;
    assert d[..4] == "1999";
  }

  const NoPlot: string := "No plot available"

  /** `overview || 'No plot available'` (server.js:426). */
  function Plot(overview: Option<string>): (plot: string)
    ensures plot != []
    ensures overview.Some? && overview.value != [] ==> plot == overview.value
    ensures overview.None? || overview.value == [] ==> plot == NoPlot
  {
    if overview.Some? && overview.value != [] then overview.value else NoPlot
  }

  const PosterBase: string := "https://image.tmdb.org/t/p/w500"

  /** `poster_path ? base + poster_path : null` (server.js:427, 470). */
  function PosterUrl(posterPath: Option<string>): (url: Option<string>)
    ensures url.Some? <==> posterPath.Some? && posterPath.value != []
    ensures url.Some? ==> && |PosterBase| <= |url.value|
                          && url.value[..|PosterBase|] == PosterBase
                          && url.value[|PosterBase|..] == posterPath.value
  {
    if posterPath.Some? && posterPath.value != [] then Some(PosterBase + posterPath.value) else None
  }

  predicate IsYouTubeTrailer(v: Video) {
    v.site == "YouTube" && v.kind == "Trailer"
  }

  /** The index of the first YouTube trailer at or after `i`. */
  function FindTrailer(videos: seq<Video>, i: nat): (r: Option<nat>)
    requires i <= |videos|
    ensures r.Some? ==> i <= r.value < |videos| && IsYouTubeTrailer(videos[r.value])
    ensures r.Some? ==> forall j :: i <= j < r.value ==> !IsYouTubeTrailer(videos[j])
    ensures r.None? ==> forall j :: i <= j < |videos| ==> !IsYouTubeTrailer(videos[j])
    decreases |videos| - i
  {
    if i == |videos| then None
    else if IsYouTubeTrailer(videos[i]) then Some(i)
    else FindTrailer(videos, i + 1)
  }

  const EmbedBase: string := "https://www.youtube.com/embed/"

  /** The embed address of the first YouTube trailer, or `null` (server.js:384-395). */
  function TrailerUrl(videos: Option<seq<Video>>): (url: Option<string>)
    ensures url.Some? <==> videos.Some? && exists k :: 0 <= k < |videos.value| && IsYouTubeTrailer(videos.value[k])
    ensures url.Some? ==> exists k :: && 0 <= k < |videos.value| && IsYouTubeTrailer(videos.value[k])
                                      && url.value == EmbedBase + videos.value[k].key
                                      && forall j :: 0 <= j < k ==> !IsYouTubeTrailer(videos.value[j])
  {
    if videos.None? then None
    else match FindTrailer(videos.value, 0)
      case None => None
      case Some(k) => Some(EmbedBase + videos.value[k].key)
  }

  /** The TMDB score: `vote_average.toFixed(1)` when truthy, else `N/A` (server.js:433). */
  function TmdbScore(voteFixed: Option<string>): string {
    match voteFixed
    case Some(v) => v
    case None => NotAvailable
  }

  /** A rating slot: what the resolver answered, or `N/A` when it threw
      (server.js:399-421). */
  function SlotValue(outcome: Reply<string>): string {
    match outcome
    case Ok(v) => v
    case Fail => NotAvailable
  }

  // ---------------------------------------------------------------------
  // The movie record (server.js:423-435)

  datatype Ratings = Ratings(imdb: string, rottenTomatoes: string, letterboxd: string, tmdb: string)

  datatype MovieInfo = MovieInfo(
    title: string,
    year: string,
    plot: string,
    poster: Option<string>,   // `null` as `None`
    trailer: Option<string>,  // `null` as `None`
    ratings: Ratings)

  /** The record the handler caches and answers with. */
  function AssembleRecord(details: MovieDetails, imdb: Reply<string>, rt: Reply<string>, lb: Reply<string>): (info: MovieInfo)
    ensures info.title == details.title
    ensures info.year != [] && info.plot != []
    ensures imdb.Fail? ==> info.ratings.imdb == NotAvailable
    ensures rt.Fail? ==> info.ratings.rottenTomatoes == NotAvailable
    ensures lb.Fail? ==> info.ratings.letterboxd == NotAvailable
    ensures details.voteFixed.None? ==> info.ratings.tmdb == NotAvailable
    ensures details.voteFixed.Some? ==> info.ratings.tmdb == details.voteFixed.value
    ensures imdb.Ok? ==> info.ratings.imdb == imdb.body
    ensures rt.Ok? ==> info.ratings.rottenTomatoes == rt.body
    ensures lb.Ok? ==> info.ratings.letterboxd == lb.body
    ensures info.year == DetailYear(details.releaseDate) && info.plot == Plot(details.overview)
    ensures info.poster == PosterUrl(details.posterPath) && info.trailer == TrailerUrl(details.videos)
  {
    MovieInfo(
      details.title,
      DetailYear(details.releaseDate),
      Plot(details.overview),
      PosterUrl(details.posterPath),
      TrailerUrl(details.videos),
      Ratings(SlotValue(imdb), SlotValue(rt), SlotValue(lb), TmdbScore(details.voteFixed)))
  }

  // ---------------------------------------------------------------------
  // The search answer (server.js:448-485)

  datatype SearchEntry = SearchEntry(id: int, title: string, year: string, poster: Option<string>)

  datatype SearchAnswer =
    | MissingQuery                                      // 400
    | SearchFailed                                      // 500
    | Results(multipleResults: bool, movies: seq<SearchEntry>)

  function Entry(m: TmdbMovie): (e: SearchEntry)
    ensures e.id == m.id && e.title == m.title
    ensures e.year == SearchYear(m.releaseDate) && e.poster == PosterUrl(m.posterPath)
  {
    SearchEntry(m.id, m.title, SearchYear(m.releaseDate), PosterUrl(m.posterPath))
  }

  /** `results.map(...)`: one entry per result, in the same order. */
  function Entries(results: seq<TmdbMovie>): (entries: seq<SearchEntry>)
    ensures |entries| == |results|
    ensures forall k :: 0 <= k < |results| ==> entries[k] == Entry(results[k])
  {
    if results == [] then []
    else [Entry(results[0])] + Entries(results[1..])
  }

  /** The `/api/search` answer for the query parameter `q` (`None` when absent). */
  function SearchMovies(web: Web, q: Option<string>): (answer: SearchAnswer)
    ensures q.None? || q.value == [] <==> answer.MissingQuery?
    ensures answer.Results? ==> web.tmdbSearch(q.value).Ok?
    ensures answer.Results? ==> |answer.movies| == |web.tmdbSearch(q.value).body|
    ensures answer.Results? ==> (answer.multipleResults <==> |answer.movies| > 1)
    ensures q.Some? && q.value != [] ==> (answer.Results? <==> web.tmdbSearch(q.value).Ok?)
    ensures answer.Results? ==> answer.movies == Entries(web.tmdbSearch(q.value).body)
  {
    if q.None? || q.value == [] then MissingQuery
    else match web.tmdbSearch(q.value)
      case Fail => SearchFailed
      case Ok(results) =>
        if |results| == 0 then Results(false, [])
        else
          var movies := Entries(results);
          Results(|movies| > 1, movies)
  }

  /** The early return for zero results answers what the general mapping
      would: no entries and no multiple-results flag. */
  lemma EmptySearchAgrees(web: Web, q: string)
    requires q != [] && web.tmdbSearch(q) == Ok([])
    ensures SearchMovies(web, Some(q)) == Results(|Entries([])| > 1, Entries([]))
  {
  }

  /** Each entry keeps its result's id and title, in the TMDB order. */
  lemma SearchKeepsOrder(web: Web, q: string, k: nat)
    requires SearchMovies(web, Some(q)).Results?
    requires k < |web.tmdbSearch(q).body|
    ensures SearchMovies(web, Some(q)).movies[k].id == web.tmdbSearch(q).body[k].id
    ensures SearchMovies(web, Some(q)).movies[k].title == web.tmdbSearch(q).body[k].title
  {
  }
}

=== FILE: resolvers.dfy ===
/** The three rating resolvers: `fetchIMDbRating` (server.js:27-100),
    `fetchRottenTomatoesRating` (server.js:103-195) and
    `fetchLetterboxdRating` (server.js:198-360). Each catches every error
    and answers `N/A` instead, so each is total here. */
module Resolvers {
  import opened Wrappers
  import opened Text
  import opened Slugs
  import opened Patterns
  import opened Chains
  import opened Upstream

  // ---------------------------------------------------------------------
  // Addresses

  const LetterboxdOrigin: string := "https://letterboxd.com"

  function ImdbUrl(imdbId: string): string {
    "https://www.imdb.com/title/" + imdbId + "/"
  }

  function RtUrl(query: string): string {
    "https://www.rottentomatoes.com/m/" + RtSlug(query)
  }

  function LbDirectUrl(query: string): string {
    LetterboxdOrigin + "/film/" + LbSlug(query) + "/"
  }

  function GoogleQuery(query: string): string {
    query + " letterboxd rating"
  }

  /** JavaScript truthiness of an optional string. */
  predicate TruthyText(o: Option<string>) {
    o.Some? && o.value != []
  }

  // ---------------------------------------------------------------------
  // IMDb (server.js:27-100)

  /** The IMDb rating of the first TMDB hit for `query`. */
  function ImdbRating(web: Web, query: string): string {
    match web.tmdbSearch(query)
    case Fail => NotAvailable
    case Ok(results) =>
      if |results| == 0 then NotAvailable
      else match web.tmdbImdbId(results[0].id)
        case Fail => NotAvailable
        case Ok(imdbId) =>
          if !TruthyText(imdbId) then NotAvailable
          else match web.imdbPage(ImdbUrl(imdbId.value))
            case Fail => NotAvailable
            case Ok(page) => ImdbChain(page)
  }

  /** The IMDb resolver answers `N/A` or a number-like text. */
  lemma ImdbRatingNumeric(web: Web, query: string)
    ensures var r := ImdbRating(web, query); r == NotAvailable || (r != [] && ParsesAsFloat(r))
  {
    if web.tmdbSearch(query).Ok? && |web.tmdbSearch(query).body| > 0 {
      var imdbId := web.tmdbImdbId(web.tmdbSearch(query).body[0].id);
      if imdbId.Ok? && TruthyText(imdbId.body) {
        var page := web.imdbPage(ImdbUrl(imdbId.body.value));
        if page.Ok? {
          ImdbChainNumeric(page.body);
        }
      }
    }
  }

  /** Each early exit of the resolver answers `N/A`: a failed or empty TMDB
      search, a failed details fetch or a missing `imdb_id`, a failed page
      fetch. */
  lemma ImdbRatingGivesUp(web: Web, query: string)
    ensures web.tmdbSearch(query).Fail? || web.tmdbSearch(query).body == [] ==>
              ImdbRating(web, query) == NotAvailable
    ensures web.tmdbSearch(query).Ok? && web.tmdbSearch(query).body != [] ==>
              var imdbId := web.tmdbImdbId(web.tmdbSearch(query).body[0].id);
              (imdbId.Fail? || !TruthyText(imdbId.body) ||
               web.imdbPage(ImdbUrl(imdbId.body.value)).Fail?) ==> ImdbRating(web, query) == NotAvailable
  {
  }

  /** Only the first TMDB hit is consulted: hits after it never matter. */
  lemma ImdbRatingFirstHitOnly(web: Web, query: string, more: seq<TmdbMovie>)
    requires web.tmdbSearch(query).Ok? && |web.tmdbSearch(query).body| > 0
    ensures var first := web.tmdbSearch(query).body[0];
            ImdbRating(web, query) == ImdbRating(web.(tmdbSearch := _ => Ok([first] + more)), query)
  {
  }

  // ---------------------------------------------------------------------
  // Rotten Tomatoes (server.js:103-195)

  /** The index of the first rating at or after `i` whose source is Rotten
      Tomatoes (`Ratings.find(r => r.Source === "Rotten Tomatoes")`). */
  function FindRtEntry(ratings: seq<OmdbRating>, i: nat): (r: Option<nat>)
    requires i <= |ratings|
    ensures r.Some? ==> i <= r.value < |ratings| && ratings[r.value].source == "Rotten Tomatoes"
    ensures r.Some? ==> forall j :: i <= j < r.value ==> ratings[j].source != "Rotten Tomatoes"
    ensures r.None? ==> forall j :: i <= j < |ratings| ==> ratings[j].source != "Rotten Tomatoes"
    decreases |ratings| - i
  {
    if i == |ratings| then None
    else if ratings[i].source == "Rotten Tomatoes" then Some(i)
    else FindRtEntry(ratings, i + 1)
  }

  /** The score OMDB supplies, if its reply is usable (server.js:108-120). */
  function OmdbRtScore(reply: Reply<OmdbReply>): (r: Option<string>)
    ensures r.Some? ==> r.value != []
    ensures r.Some? <==> && reply.Ok? && reply.body.response == "True" && reply.body.ratings.Some?
                         && FindRtEntry(reply.body.ratings.value, 0).Some?
                         && reply.body.ratings.value[FindRtEntry(reply.body.ratings.value, 0).value].value != []
    ensures r.Some? ==> && reply.Ok? && reply.body.ratings.Some?
                        && var rs := reply.body.ratings.value;
                           exists k :: && 0 <= k < |rs| && rs[k].source == "Rotten Tomatoes"
                                       && (forall j :: 0 <= j < k ==> rs[j].source != "Rotten Tomatoes")
                                       && r.value == rs[k].value
  {
    match reply
    case Fail => None
    case Ok(data) =>
      if data.response == "True" && data.ratings.Some? then
        match FindRtEntry(data.ratings.value, 0)
        case Some(k) => if data.ratings.value[k].value != [] then Some(data.ratings.value[k].value) else None
        case None => None
      else None
  }

  /** The Rotten Tomatoes rating for `query`: OMDB's entry, else the film
      page at the slug address, else `N/A`. */
  function RtRating(web: Web, query: string): string {
    match OmdbRtScore(web.omdb(query))
    case Some(v) => v
    case None =>
      match web.rtPage(RtUrl(query))
      case Fail => NotAvailable
      case Ok(page) => RtChain(page)
  }

  /** An OMDB score is returned before any page is fetched: the answer is
      the same whatever the Rotten Tomatoes site would have served. */
  lemma RtOmdbBeforeScraping(web: Web, query: string, site: string -> Reply<RtPage>)
    requires OmdbRtScore(web.omdb(query)).Some?
    ensures RtRating(web, query) == OmdbRtScore(web.omdb(query)).value
    ensures RtRating(web, query) == RtRating(web.(rtPage := site), query)
  {
  }

  /** `find` stops at the first Rotten Tomatoes entry: when its value is
      empty, a later entry with a score is not used and the page is scraped. */
  lemma OmdbFirstEntryOnly()
    ensures OmdbRtScore(Ok(OmdbReply("True", Some([OmdbRating("Rotten Tomatoes", ""),
                                                   OmdbRating("Rotten Tomatoes", "91%")])))).None?
  {
    var rs := [OmdbRating("Rotten Tomatoes", ""), OmdbRating("Rotten Tomatoes", "91%")];
    assert FindRtEntry(rs, 0) == Some(0);
  }

  /** Without an OMDB score, a page that cannot be fetched gives `N/A`. */
  lemma RtFetchFailure(web: Web, query: string)
    requires OmdbRtScore(web.omdb(query)).None? && web.rtPage(RtUrl(query)).Fail?
    ensures RtRating(web, query) == NotAvailable
  {
  }

  // ---------------------------------------------------------------------
  // Letterboxd page acquisition (server.js:211-303)

  /** The film link of the first search result (server.js:242-244): the
      first truthy one of the poster's target link, the poster anchor's
      href and the title anchor's href. */
  function FilmLink(r: SearchResult): (link: Option<string>)
    ensures link.Some? ==> link.value != []
    ensures TruthyText(r.posterTargetLink) ==> link == r.posterTargetLink
    ensures !TruthyText(r.posterTargetLink) && TruthyText(r.posterAnchorHref) ==> link == r.posterAnchorHref
    ensures !TruthyText(r.posterTargetLink) && !TruthyText(r.posterAnchorHref) ==>
              link == (if TruthyText(r.titleAnchorHref) then r.titleAnchorHref else None)
  {
    if TruthyText(r.posterTargetLink) then r.posterTargetLink
    else if TruthyText(r.posterAnchorHref) then r.posterAnchorHref
    else if TruthyText(r.titleAnchorHref) then r.titleAnchorHref
    else None
  }

  /** A non-empty target link is the film link whatever the two anchors
      hold; without any truthy candidate there is no link. */
  lemma FilmLinkTargetFirst(r: SearchResult, posterHref: Option<string>, titleHref: Option<string>)
    ensures TruthyText(r.posterTargetLink) ==>
              FilmLink(r.(posterAnchorHref := posterHref, titleAnchorHref := titleHref)) == r.posterTargetLink
    ensures FilmLink(r).None? <==>
              !TruthyText(r.posterTargetLink) && !TruthyText(r.posterAnchorHref) && !TruthyText(r.titleAnchorHref)
  {
  }

  const FilmPath: string := "letterboxd.com/film/"

  /** An anchor the Google scan stops at: `href && href.includes('letterboxd.com/film/')`. */
  predicate IsFilmHref(href: Option<string>) {
    TruthyText(href) && Contains(href.value, FilmPath)
  }

  /** The index of the first anchor at or after `i` that links to a film page. */
  function FirstFilmHref(hrefs: seq<Option<string>>, i: nat): (r: Option<nat>)
    requires i <= |hrefs|
    ensures r.Some? ==> i <= r.value < |hrefs| && IsFilmHref(hrefs[r.value])
    ensures r.Some? ==> forall j :: i <= j < r.value ==> !IsFilmHref(hrefs[j])
    ensures r.None? ==> forall j :: i <= j < |hrefs| ==> !IsFilmHref(hrefs[j])
    decreases |hrefs| - i
  {
    if i == |hrefs| then None
    else if IsFilmHref(hrefs[i]) then Some(i)
    else FirstFilmHref(hrefs, i + 1)
  }

  /** The address the Google tier fetches: the first film anchor's href,
      unwrapped from Google's redirect when it is one. */
  function FilmTarget(hrefs: seq<Option<string>>): (r: Option<string>)
    ensures r.Some? <==> exists k :: 0 <= k < |hrefs| && IsFilmHref(hrefs[k])
    ensures r.Some? ==> r.value != []
    ensures r.Some? ==> exists k :: && 0 <= k < |hrefs| && IsFilmHref(hrefs[k])
                                    && (forall j :: 0 <= j < k ==> !IsFilmHref(hrefs[j]))
                                    && r.value == UnwrapGoogleHref(hrefs[k].value)
  {
    match FirstFilmHref(hrefs, 0)
    case None => None
    case Some(k) =>
      var href := hrefs[k].value;
      assert UnwrapGoogleHref(href) != [] by {
        if forall j: nat :: !UrlQueryAt(href, j) {
          assert UnwrapGoogleHref(href) == href;
        }
      }
      Some(UnwrapGoogleHref(href))
  }

  /** The Google scan (server.js:272-279): walks the anchors in page order and
      stops at the first film link, as returning `false` from `each` does. */
  method FindLetterboxdHref(hrefs: seq<Option<string>>) returns (target: Option<string>)
    ensures target == FilmTarget(hrefs)
  {
    target := None;
    var i := 0;
    while i < |hrefs|
      invariant 0 <= i <= |hrefs|
      invariant FirstFilmHref(hrefs, 0) == FirstFilmHref(hrefs, i)
      invariant target.None?
    {
      var href := hrefs[i];
      if href.Some? && href.value != [] && Contains(href.value, FilmPath) {
        target := Some(UnwrapGoogleHref(href.value));
        break;
      }
      i := i + 1;
    }
  }

  /** The tiers of the acquisition, in the order they can run. */
  datatype Tier = DirectUrl | SiteSearch | GoogleSearch

  /** What the acquisition ends with: the film page (`movieHtml`), the
      address it was taken from (`movieUrl`) and the tiers that ran. */
  datatype Acquired = Acquired(page: Option<LbPage>, url: Option<string>, tiers: seq<Tier>)

  /** The page a fetch yields, if it succeeds. */
  function PageOf(reply: Reply<LbPage>): Option<LbPage> {
    match reply
    case Ok(p) => Some(p)
    case Fail => None
  }

  /** The acquisition, as a value: the direct slug address; if that fetch
      fails, the site search, whose first result's film link is fetched;
      if the search has no result at all, the Google scan. A failing fetch
      in the search or Google tier leaves no page. */
  function Acquisition(web: Web, query: string): (a: Acquired)
    ensures |a.tiers| >= 1 && a.tiers[0] == DirectUrl
    ensures SiteSearch in a.tiers <==> web.lbPage(LbDirectUrl(query)).Fail?
    ensures GoogleSearch in a.tiers <==> web.lbPage(LbDirectUrl(query)).Fail? && web.lbSearch(query) == Ok(None)
    ensures web.lbPage(LbDirectUrl(query)).Ok? ==>
              a.page == Some(web.lbPage(LbDirectUrl(query)).body) && a.url == Some(LbDirectUrl(query))
  {
    var direct := LbDirectUrl(query);
    match web.lbPage(direct)
    case Ok(p) => Acquired(Some(p), Some(direct), [DirectUrl])
    case Fail =>
      match web.lbSearch(query)
      case Fail => Acquired(None, None, [DirectUrl, SiteSearch])
      case Ok(Some(first)) =>
        (match FilmLink(first)
         case None => Acquired(None, None, [DirectUrl, SiteSearch])
         case Some(link) =>
           var url := LetterboxdOrigin + link;
           Acquired(PageOf(web.lbPage(url)), Some(url), [DirectUrl, SiteSearch]))
      case Ok(None) =>
        var tiers := [DirectUrl, SiteSearch, GoogleSearch];
        match web.google(GoogleQuery(query))
        case Fail => Acquired(None, None, tiers)
        case Ok(hrefs) =>
          match FilmTarget(hrefs)
          case None => Acquired(None, None, tiers)
          case Some(target) =>
            match web.lbPage(target)
            case Ok(p) => Acquired(Some(p), Some(target), tiers)
            case Fail => Acquired(None, None, tiers)
  }

  /** A first search result without any of the three links ends the
      acquisition: Google is not tried and there is no page. */
  lemma LinklessResultStops(web: Web, query: string, first: SearchResult)
    requires web.lbPage(LbDirectUrl(query)).Fail?
    requires web.lbSearch(query) == Ok(Some(first))
    requires FilmLink(first).None?
    ensures Acquisition(web, query).page.None?
    ensures GoogleSearch !in Acquisition(web, query).tiers
  {
  }

  /** The search tier fetches the site address of the first result's film link. */
  lemma SearchTierFetchesLink(web: Web, query: string, first: SearchResult)
    requires web.lbPage(LbDirectUrl(query)).Fail?
    requires web.lbSearch(query) == Ok(Some(first))
    requires FilmLink(first).Some?
    ensures Acquisition(web, query).url == Some(LetterboxdOrigin + FilmLink(first).value)
    ensures Acquisition(web, query).page == PageOf(web.lbPage(LetterboxdOrigin + FilmLink(first).value))
  {
  }

  /** The Google tier fetches the first film anchor's target: the page is
      what that fetch returned, the address is kept only when the fetch
      succeeded, and a page it keeps came from there. */
  lemma GoogleTierFetchesTarget(web: Web, query: string, hrefs: seq<Option<string>>)
    requires web.lbPage(LbDirectUrl(query)).Fail?
    requires web.lbSearch(query) == Ok(None)
    requires web.google(GoogleQuery(query)) == Ok(hrefs)
    ensures Acquisition(web, query).page.Some? ==>
              && FilmTarget(hrefs).Some?
              && Acquisition(web, query).url == FilmTarget(hrefs)
              && Acquisition(web, query).page == PageOf(web.lbPage(FilmTarget(hrefs).value))
    ensures (forall k :: 0 <= k < |hrefs| ==> !IsFilmHref(hrefs[k])) ==> Acquisition(web, query).page.None?
    ensures FilmTarget(hrefs).Some? ==>
              Acquisition(web, query).page == PageOf(web.lbPage(FilmTarget(hrefs).value))
    ensures FilmTarget(hrefs).Some? ==>
              Acquisition(web, query).url ==
                (if web.lbPage(FilmTarget(hrefs).value).Ok? then FilmTarget(hrefs) else None)
  {
  }

  /** The acquisition as the handler runs it: the same steps, assigning
      `movieUrl` and `movieHtml` as each tier succeeds. */
  method AcquireFilmPage(web: Web, query: string) returns (a: Acquired)
    ensures a == Acquisition(web, query)
  {
    var movieUrl: Option<string> := None;
    var movieHtml: Option<LbPage> := None;
    var tiers := [DirectUrl];
    var direct := LbDirectUrl(query);
    match web.lbPage(direct) {
      case Ok(p) =>
        movieUrl := Some(direct);
        movieHtml := Some(p);
      case Fail =>
        tiers := [DirectUrl, SiteSearch];
        match web.lbSearch(query) {
          case Fail =>
          case Ok(first) =>
            if first.Some? {
              var link := FilmLink(first.value);
              if link.Some? {
                movieUrl := Some(LetterboxdOrigin + link.value);
                movieHtml := PageOf(web.lbPage(movieUrl.value));
              }
            } else {
              tiers := [DirectUrl, SiteSearch, GoogleSearch];
              match web.google(GoogleQuery(query)) {
                case Fail =>
                case Ok(hrefs) =>
                  var letterboxdUrl := FindLetterboxdHref(hrefs);
                  if letterboxdUrl.Some? && letterboxdUrl.value != [] {
                    var reply := web.lbPage(letterboxdUrl.value);
                    if reply.Ok? {
                      movieHtml := Some(reply.body);
                      movieUrl := letterboxdUrl;
                    }
                  }
              }
            }
        }
    }
    a := Acquired(movieHtml, movieUrl, tiers);
  }

  // ---------------------------------------------------------------------
  // Letterboxd rating (server.js:300-355)

  /** The rating read from what the acquisition kept: `N/A` without a page
      or with an empty one (`!movieHtml`), else the Letterboxd chain. */
  function RatingFromPage(page: Option<LbPage>): string {
    if page.None? || page.value.html == [] then NotAvailable else LbChain(page.value)
  }

  function LetterboxdRatingOf(web: Web, query: string): string {
    RatingFromPage(Acquisition(web, query).page)
  }

  method LetterboxdRating(web: Web, query: string) returns (rating: string)
    ensures rating == LetterboxdRatingOf(web, query)
  {
    var a := AcquireFilmPage(web, query);
    if a.page.None? || a.page.value.html == [] {
      return NotAvailable;
    }
    rating := LbChain(a.page.value);
  }

  /** An empty page at the direct address ends the scraper with `N/A`: the
      search tier only runs when the direct fetch fails. */
  lemma EmptyDirectPageGivesUp(web: Web, query: string, p: LbPage)
    requires web.lbPage(LbDirectUrl(query)) == Ok(p) && p.html == []
    ensures LetterboxdRatingOf(web, query) == NotAvailable
    ensures SiteSearch !in Acquisition(web, query).tiers
  {
  }
}

=== FILE: slugs.dfy ===
/** The two title-to-URL-slug transforms: Rotten Tomatoes' underscore
    scheme (server.js lines 122-126) and Letterboxd's hyphen scheme
    (lines 202-206). Each is the composition of the same small steps in a
    different order, so the steps are defined once and specified here. */
module Slugs {
  import opened Wrappers
  import opened Text

  /** `\([0-9]{4}\)` (equivalently `\(\d{4}\)`) matches at index `i`. */
  predicate YearAt(s: string, i: nat) {
    && i + 6 <= |s|
    && s[i] == '(' && IsDigit(s[i + 1]) && IsDigit(s[i + 2])
    && IsDigit(s[i + 3]) && IsDigit(s[i + 4]) && s[i + 5] == ')'
  }

  /** The leftmost year at or after `i`. */
  function FindYearFrom(s: string, i: nat): (r: Option<nat>)
    ensures r.Some? ==> i <= r.value && YearAt(s, r.value)
    ensures r.Some? ==> forall j :: i <= j < r.value ==> !YearAt(s, j)
    ensures r.None? ==> forall j :: i <= j ==> !YearAt(s, j)
    decreases |s| - i
  {
    if i + 6 > |s| then None
    else if YearAt(s, i) then Some(i)
    else FindYearFrom(s, i + 1)
  }

  function FirstYear(s: string): Option<nat> { FindYearFrom(s, 0) }

  /** `.replace(/\([0-9]{4}\)/, '')`: without the `g` flag only the leftmost
      parenthesised year goes. */
  function RemoveYear(s: string): (r: string)
    ensures forall c :: c in r ==> c in s
    ensures FirstYear(s).None? ==> r == s
    ensures FirstYear(s).Some? ==>
              var p := FirstYear(s).value;
              |r| == |s| - 6 && r[..p] == s[..p] && r[p..] == s[p + 6..]
  {
    match FirstYear(s)
    case None => s
    case Some(p) =>
      SliceChars(s, 0, p);
      SliceChars(s, p + 6, |s|);
      s[..p] + s[p + 6..]
  }

  /** Removing the pattern `\s*\(\d{4}\)\s*` once (no `g` flag). The leftmost match starts at the
      whitespace run that precedes the first year (a later year's run cannot
      begin earlier, since the first year's `(` is not whitespace), and the
      greedy trailing `\s*` eats the whole run after it. */
  function RemoveSpacedYear(s: string): (r: string)
    ensures forall c :: c in r ==> c in s
    ensures FirstYear(s).None? ==> r == s
    ensures FirstYear(s).Some? ==>
              var p := FirstYear(s).value;
              var b, e := SpaceRunStart(s, p), SpaceRunEnd(s, p + 6);
              |r| == |s| - (e - b) && r[..b] == s[..b] && r[b..] == s[e..]
  {
    match FirstYear(s)
    case None => s
    case Some(p) =>
      var b, e := SpaceRunStart(s, p), SpaceRunEnd(s, p + 6);
      SliceChars(s, 0, b);
      SliceChars(s, e, |s|);
      s[..b] + s[e..]
  }

  /** The characters `.replace(/[^\w\s]/g, '')` keeps, and with `keepHyphen`
      those `.replace(/[^\w\s-]/g, '')` keeps. */
  predicate Kept(c: char, keepHyphen: bool) {
    IsWordChar(c) || IsSpace(c) || (keepHyphen && c == '-')
  }

  /** Deletes every character that is not kept. */
  function Strip(s: string, keepHyphen: bool): (r: string)
    ensures forall c :: c in r ==> c in s && Kept(c, keepHyphen)
    ensures forall c :: c in s && Kept(c, keepHyphen) ==> c in r
  {
    if s == [] then []
    else if Kept(s[0], keepHyphen) then [s[0]] + Strip(s[1..], keepHyphen)
    else Strip(s[1..], keepHyphen)
  }

  /** Stripping is a filter: it works character by character, keeping order
      and multiplicity. */
  lemma {:induction false} StripIsFilter(a: string, b: string, keepHyphen: bool)
    ensures Strip(a + b, keepHyphen) == Strip(a, keepHyphen) + Strip(b, keepHyphen)
    ensures |a| == 1 ==> Strip(a, keepHyphen) == (if Kept(a[0], keepHyphen) then a else [])
  {
    if a == [] {
      assert a + b == b;
    } else {
      assert (a + b)[0] == a[0];
      assert (a + b)[1..] == a[1..] + b;
      StripIsFilter(a[1..], b, keepHyphen);
      if |a| == 1 {
        assert a[1..] == [];
      }
    }
  }

  lemma {:induction false} StripKeepsAllKept(s: string, keepHyphen: bool)
    requires forall c :: c in s ==> Kept(c, keepHyphen)
    ensures Strip(s, keepHyphen) == s
  {
    if s != [] {
      assert s[0] in s;
      assert forall c :: c in s[1..] ==> c in s;
      StripKeepsAllKept(s[1..], keepHyphen);
      assert s == [s[0]] + s[1..];
    }
  }

  /** `.replace(/\s+/g, sep)`: every maximal whitespace run becomes one `sep`. */
  function Collapse(s: string, sep: char): (r: string)
    ensures forall c :: c in r ==> c == sep || (c in s && !IsSpace(c))
    ensures s != [] ==> r != []
    decreases |s|
  {
    if s == [] then []
    else if IsSpace(s[0]) then [sep] + Collapse(TrimStart(s), sep)
    else [s[0]] + Collapse(s[1..], sep)
  }

  lemma {:induction false} CollapseWithoutSpace(s: string, sep: char)
    requires forall c :: c in s ==> !IsSpace(c)
    ensures Collapse(s, sep) == s
  {
    if s != [] {
      assert s[0] in s;
      assert forall c :: c in s[1..] ==> c in s;
      CollapseWithoutSpace(s[1..], sep);
    }
  }

  /** A non-space prefix passes through `Collapse` unchanged. */
  lemma {:induction false} CollapseWordPrefix(a: string, b: string, sep: char)
    requires forall c :: c in a ==> !IsSpace(c)
    ensures Collapse(a + b, sep) == a + Collapse(b, sep)
  {
    if a != [] {
      var ab, rest := a + b, Collapse(b, sep);
      assert ab[0] == a[0] && !IsSpace(ab[0]) by {
        assert a[0] in a;
      }
      assert forall c :: c in a[1..] ==> !IsSpace(c) by {
        assert forall c :: c in a[1..] ==> c in a;
      }
      CollapseNonSpace(ab, sep);
      assert ab[1..] == a[1..] + b;
      CollapseWordPrefix(a[1..], b, sep);
      assert [a[0]] + (a[1..] + rest) == ([a[0]] + a[1..]) + rest;
      assert a == [a[0]] + a[1..];
    } else {
      assert a + b == b;
    }
  }

  /** A leading non-space character is copied as it is. */
  lemma CollapseNonSpace(s: string, sep: char)
    requires s != [] && !IsSpace(s[0])
    ensures Collapse(s, sep) == [s[0]] + Collapse(s[1..], sep)
  {
  }

  /** A whitespace run of any length, up to the next non-space, becomes a
      single separator. */
  lemma CollapseRun(w: string, t: string, sep: char)
    requires w != [] && forall c :: c in w ==> IsSpace(c)
    requires t == [] || !IsSpace(t[0])
    ensures Collapse(w + t, sep) == [sep] + Collapse(t, sep)
  {
    var s := w + t;
    assert s[0] == w[0] && w[0] in w;
    forall i | 0 <= i < |w| ensures IsSpace(s[i]) { assert s[i] == w[i] && w[i] in w; }
    assert s[|s| - |t|..] == t;
    TrimStartUnique(s, t);
  }

  /** Two spaces between words give one separator, not two. */
  lemma CollapseDoubleSpaceExample(sep: char)
    ensures Collapse("a  b", sep) == "a" + [sep] + "b"
  {
    CollapseDoubleSpaceWord(sep);
    CollapseRunExample(sep);
  }

  lemma CollapseDoubleSpaceWord(sep: char)
    ensures Collapse("a  b", sep) == "a" + Collapse("  b", sep)
  {
    assert "a" + "  b" == "a  b";
    assert forall c :: c in "a" ==> !IsSpace(c);
    CollapseWordPrefix("a", "  b", sep);
  }

  lemma CollapseRunExample(sep: char)
    ensures Collapse("  b", sep) == [sep] + "b"
  {
    var w, b := "  ", "b";
    assert w + b == "  b";
    assert forall c :: c in w ==> c == ' ';
    assert forall c :: c in b ==> c == b[0];
    CollapseRun(w, b, sep);
    CollapseWithoutSpace(b, sep);
  }

  /** The last character survives `Collapse` when it is not whitespace. */
  lemma {:induction false} CollapseKeepsLast(s: string, sep: char)
    requires s != [] && !IsSpace(s[|s| - 1])
    ensures var r := Collapse(s, sep); r != [] && r[|r| - 1] == s[|s| - 1]
    decreases |s|
  {
    if IsSpace(s[0]) {
      var t := TrimStart(s);
      assert t[|t| - 1] == s[|s| - 1];
      CollapseKeepsLast(t, sep);
    } else if |s| > 1 {
      CollapseKeepsLast(s[1..], sep);
    }
  }

  /** Rotten Tomatoes: lower-case, drop the first `(yyyy)`, trim, delete
      every non-word non-space character, then each whitespace run to `_`. */
  function RtSlug(title: string): (slug: string)
    ensures forall c :: c in slug ==> RtSlugChar(c)
  {
    ToLowerHasNoUpper(title);
    Collapse(Strip(Trim(RemoveYear(ToLower(title))), false), '_')
  }

  /** Letterboxd: lower-case, drop the first `(yyyy)` with the whitespace
      around it, delete every character but word, space and `-`, trim, then
      each whitespace run to `-`. */
  function LbSlug(title: string): (slug: string)
    ensures forall c :: c in slug ==> LbSlugChar(c) && !IsSpace(c)
  {
    ToLowerHasNoUpper(title);
    Collapse(Trim(Strip(RemoveSpacedYear(ToLower(title)), true)), '-')
  }

  predicate RtSlugChar(c: char) { IsLower(c) || IsDigit(c) || c == '_' }
  predicate LbSlugChar(c: char) { IsLower(c) || IsDigit(c) || c == '_' || c == '-' }

  lemma NoParenNoYear(s: string)
    requires '(' !in s
    ensures FirstYear(s).None?
  {
    forall j | 0 <= j ensures !YearAt(s, j) {
      if j + 6 <= |s| { assert s[j] in s; }
    }
  }

  /** Normalising a Rotten Tomatoes slug again changes nothing. */
  lemma RtSlugIdempotent(title: string)
    ensures RtSlug(RtSlug(title)) == RtSlug(title)
  {
    var u := RtSlug(title);
    ToLowerIdentity(u);
    NoParenNoYear(u);
    assert forall c :: c in u ==> !IsSpace(c);
    TrimWithoutSpace(u);
    StripKeepsAllKept(u, false);
    CollapseWithoutSpace(u, '_');
  }

  /** Normalising a Letterboxd slug again changes nothing. */
  lemma LbSlugIdempotent(title: string)
    ensures LbSlug(LbSlug(title)) == LbSlug(title)
  {
    LbSlugFixed(LbSlug(title));
  }

  /** Text in the Letterboxd slug alphabet is its own slug. */
  lemma LbSlugFixed(u: string)
    requires forall c :: c in u ==> LbSlugChar(c) && !IsSpace(c)
    ensures LbSlug(u) == u
  {
    assert forall c :: c in u ==> !IsUpper(c) && c != '(' && Kept(c, true);
    ToLowerIdentity(u);
    NoParenNoYear(u);
    assert RemoveSpacedYear(ToLower(u)) == u;
    StripKeepsAllKept(u, true);
    TrimWithoutSpace(u);
    CollapseWithoutSpace(u, '-');
  }

  /** Whitespace never turns into a leading or trailing `-`: when the title
      itself has no hyphen, the Letterboxd slug neither starts nor ends
      with one. */
  lemma LbSlugNoEdgeHyphen(title: string)
    requires '-' !in title
    ensures var r := LbSlug(title); r == [] || (r[0] != '-' && r[|r| - 1] != '-')
  {
    var lowered := ToLower(title);
    assert '-' !in lowered by {
      forall i | 0 <= i < |title| ensures lowered[i] != '-' { assert title[i] in title; }
    }
    var v := Trim(Strip(RemoveSpacedYear(lowered), true));
    assert '-' !in v;
    if v != [] {
      assert v[0] in v && v[|v| - 1] in v;
      CollapseKeepsLast(v, '-');
    }
  }

  /** Only the leftmost parenthesised year is removed: a later one, which
      cannot overlap the first, is still there, six characters earlier. */
  lemma RemoveYearKeepsLaterYear(s: string, j: nat)
    requires FirstYear(s).Some? && FirstYear(s).value + 6 <= j && YearAt(s, j)
    ensures YearAt(RemoveYear(s), j - 6)
  {
    var p := FirstYear(s).value;
    var r := RemoveYear(s);
    assert r == s[..p] + s[p + 6..];
    forall k | j - 6 <= k < j ensures r[k] == s[k + 6] { }
  }

  /** The same for Letterboxd: a later year survives the spaced removal,
      moved back by the length of the cut. */
  lemma RemoveSpacedYearKeepsLaterYear(s: string, j: nat)
    requires FirstYear(s).Some? && FirstYear(s).value + 6 <= j && YearAt(s, j)
    ensures var p := FirstYear(s).value;
            var b, e := SpaceRunStart(s, p), SpaceRunEnd(s, p + 6);
            e <= j && YearAt(RemoveSpacedYear(s), j - (e - b))
  {
    var p := FirstYear(s).value;
    SpaceRunEndsBefore(s, p + 6, j);
    YearSurvivesCut(s, RemoveSpacedYear(s), SpaceRunStart(s, p), SpaceRunEnd(s, p + 6), j);
  }

  /** A year after a cut `s[b..e]` reappears `e - b` characters earlier. */
  lemma YearSurvivesCut(s: string, r: string, b: nat, e: nat, j: nat)
    requires b <= e <= j && YearAt(s, j)
    requires b <= |r| && r[b..] == s[e..]
    ensures YearAt(r, b + (j - e))
  {
    var k := b + (j - e);
    forall m | k <= m < k + 6 ensures r[m] == s[m - k + j] {
      assert r[m] == r[b..][m - b];
    }
  }

  /** `"The Matrix (1999)"` gives `the_matrix` under the Rotten Tomatoes scheme. */
  lemma RtSlugExample()
    ensures RtSlug("The Matrix (1999)") == "the_matrix"
  {
    LowerExample();
    RemoveYearExample();
    TrimExample();
    StripExample(false);
    CollapseExample('_');
    JoinExample();
  }

  /** `"The Matrix (1999)"` gives `the-matrix` under the Letterboxd scheme. */
  lemma LbSlugExample()
    ensures LbSlug("The Matrix (1999)") == "the-matrix"
  {
    LowerExample();
    RemoveSpacedYearExample();
    StripExample(true);
    TrimExample();
    CollapseExample('-');
    JoinExample();
  }

  lemma LowerExample()
    ensures ToLower("The Matrix (1999)") == "the matrix (1999)"
  {
  }

  lemma FirstYearExample()
    ensures FirstYear("the matrix (1999)") == Some(11)
  {
    var lowered := "the matrix (1999)";
    assert '(' !in lowered[..11];
    forall j | 0 <= j < 11 ensures !YearAt(lowered, j) { assert lowered[j] in lowered[..11]; }
    assert YearAt(lowered, 11);
  }

  lemma RemoveYearExample()
    ensures RemoveYear("the matrix (1999)") == "the matrix "
  {
    FirstYearExample();
    assert "the matrix (1999)"[..11] == "the matrix ";
    assert "the matrix (1999)"[17..] == [];
  }

  lemma RemoveSpacedYearExample()
    ensures RemoveSpacedYear("the matrix (1999)") == "the matrix"
  {
    var s := "the matrix (1999)";
    FirstYearExample();
    assert SpaceRunStart(s, 11) == 10 by {
      assert SpaceRunStart(s, 10) == 10 by { assert !IsSpace(s[9]); }
    }
    assert SpaceRunEnd(s, 17) == 17;
    var r := RemoveSpacedYear(s);
    assert |r| == 10 && r[..10] == s[..10];
    assert s[..10] == "the matrix";
    assert r == r[..10];
  }

  lemma TrimEndExample()
    ensures TrimEnd("the matrix ") == "the matrix"
  {
    var t := "the matrix ";
    assert t[..|t| - 1] == "the matrix";
    assert !IsSpace('x');
  }

  lemma TrimExample()
    ensures Trim("the matrix ") == "the matrix"
    ensures Trim("the matrix") == "the matrix"
  {
    assert !IsSpace('t') && !IsSpace('x');
    TrimEndExample();
  }

  lemma StripExample(keepHyphen: bool)
    ensures Strip("the matrix", keepHyphen) == "the matrix"
  {
    assert forall c :: c in "the matrix" ==> Kept(c, keepHyphen);
    StripKeepsAllKept("the matrix", keepHyphen);
  }

  lemma CollapseExample(sep: char)
    ensures Collapse("the matrix", sep) == "the" + [sep] + "matrix"
  {
    CollapseWordExample(sep);
    CollapseSpaceExample(sep);
  }

  lemma JoinExample()
    ensures "the" + ['_'] + "matrix" == "the_matrix"
    ensures "the" + ['-'] + "matrix" == "the-matrix"
  {
  }

  lemma CollapseWordExample(sep: char)
    ensures Collapse("the matrix", sep) == "the" + Collapse(" matrix", sep)
  {
    assert "the" + " matrix" == "the matrix";
    assert forall c :: c in "the" ==> !IsSpace(c);
    CollapseWordPrefix("the", " matrix", sep);
  }

  lemma CollapseSpaceExample(sep: char)
    ensures Collapse(" matrix", sep) == [sep] + "matrix"
  {
    MatrixTrimStart();
    MatrixHasNoSpace();
    CollapseWithoutSpace("matrix", sep);
    var m := " matrix";
    assert m[0] == ' ';
    assert Collapse(m, sep) == [sep] + Collapse(TrimStart(m), sep);
  }

  lemma MatrixHasNoSpace()
    ensures forall c :: c in "matrix" ==> !IsSpace(c)
  {
  }

  lemma MatrixTrimStart()
    ensures TrimStart(" matrix") == "matrix"
  {
    var m := " matrix";
    assert m[0] == ' ' && m[1..] == "matrix";
    assert !IsSpace('m');
  }
}

=== FILE: text.dfy ===
/** Character classes and the string primitives the scrapers use:
    `toLowerCase`, `trim`, and searches for the first or last position
    where a character occurs. */
module Text {

  /** `\s` in a regular expression, and what `String.prototype.trim` removes:
      the ECMAScript WhiteSpace and LineTerminator code points. */
  predicate IsSpace(c: char) {
    || c == ' ' || c == '\t' || c == '\n' || c == '\r' || c == '\U{0B}' || c == '\U{0C}'
    || c == '\U{A0}' || c == '\U{1680}' || ('\U{2000}' <= c <= '\U{200A}')
    || c == '\U{2028}' || c == '\U{2029}' || c == '\U{202F}' || c == '\U{205F}'
    || c == '\U{3000}' || c == '\U{FEFF}'
  }

  predicate IsDigit(c: char) { '0' <= c <= '9' }
  predicate IsUpper(c: char) { 'A' <= c <= 'Z' }
  predicate IsLower(c: char) { 'a' <= c <= 'z' }

  /** `\w` (no `u` flag): ASCII letters, digits and underscore. */
  predicate IsWordChar(c: char) { IsUpper(c) || IsLower(c) || IsDigit(c) || c == '_' }

  /** `toLowerCase` restricted to ASCII. */
  function Lower(c: char): (d: char)
    ensures !IsUpper(d)
    ensures IsUpper(c) ==> IsLower(d) && d as int == c as int + 32
    ensures !IsUpper(c) ==> d == c
  {
    if IsUpper(c) then (c as int + 32) as char else c
  }

  /** `s.toLowerCase()` on ASCII: each upper-case letter becomes its
      lower-case partner (32 code points on), everything else is kept. */
  function ToLower(s: string): (t: string)
    ensures |t| == |s|
    ensures forall i :: 0 <= i < |s| ==>
              if IsUpper(s[i]) then t[i] as int == s[i] as int + 32 else t[i] == s[i]
  {
    seq(|s|, i requires 0 <= i < |s| => Lower(s[i]))
  }

  lemma ToLowerHasNoUpper(s: string)
    ensures forall c :: c in ToLower(s) ==> !IsUpper(c)
  {
    forall c | c in ToLower(s) ensures !IsUpper(c) {
      var i :| 0 <= i < |s| && ToLower(s)[i] == c;
    }
  }

  lemma ToLowerIdentity(s: string)
    requires forall c :: c in s ==> !IsUpper(c)
    ensures ToLower(s) == s
  {
    assert forall i :: 0 <= i < |s| ==> ToLower(s)[i] == s[i] by {
      forall i | 0 <= i < |s| ensures ToLower(s)[i] == s[i] {
        assert s[i] in s;
      }
    }
  }

  /** Drops the leading whitespace run: the result is the suffix of `s`
      that starts at its first non-space character. */
  function TrimStart(s: string): (r: string)
    ensures |r| <= |s| && r == s[|s| - |r|..]
    ensures forall c :: c in r ==> c in s
    ensures r == [] || !IsSpace(r[0])
    ensures forall i :: 0 <= i < |s| - |r| ==> IsSpace(s[i])
  {
    var e := SpaceRunEnd(s, 0);
    SliceChars(s, e, |s|);
    s[e..]
  }

  /** Drops the trailing whitespace run: the result is the prefix of `s`
      that ends at its last non-space character. */
  function TrimEnd(s: string): (r: string)
    ensures |r| <= |s| && r == s[..|r|]
    ensures forall c :: c in r ==> c in s
    ensures r == [] || !IsSpace(r[|r| - 1])
    ensures forall i :: |r| <= i < |s| ==> IsSpace(s[i])
  {
    if |s| > 0 && IsSpace(s[|s| - 1]) then TrimEnd(s[..|s| - 1]) else s
  }

  /** `String.prototype.trim`. */
  function Trim(s: string): (r: string)
    ensures forall c :: c in r ==> c in s
    ensures r == [] || (!IsSpace(r[0]) && !IsSpace(r[|r| - 1]))
    decreases |s|
  {
    if |s| > 0 && IsSpace(s[0]) then Trim(s[1..]) else TrimEnd(s)
  }

  /** Text without whitespace is left as it is. */
  lemma TrimWithoutSpace(s: string)
    requires forall c :: c in s ==> !IsSpace(c)
    ensures Trim(s) == s
  {
    if s != [] {
      assert s[0] in s && s[|s| - 1] in s;
    }
    EdgesNotSpace(s);
  }

  /** `trim` drops exactly the leading and the trailing whitespace runs. */
  lemma {:induction false} TrimBothEnds(s: string)
    ensures Trim(s) == TrimEnd(TrimStart(s))
    decreases |s|
  {
    if |s| > 0 && IsSpace(s[0]) {
      TrimStartSkip(s);
      TrimBothEnds(s[1..]);
    } else {
      TrimStartUnique(s, s);
    }
  }

  /** A leading whitespace character is part of the run `TrimStart` drops. */
  lemma TrimStartSkip(s: string)
    requires |s| > 0 && IsSpace(s[0])
    ensures TrimStart(s) == TrimStart(s[1..])
  {
    var r := TrimStart(s[1..]);
    assert s[1..][|s| - 1 - |r|..] == s[|s| - |r|..];
    forall i | 1 <= i < |s| - |r| ensures IsSpace(s[i]) { assert s[i] == s[1..][i - 1]; }
    TrimStartUnique(s, r);
  }

  /** The suffix of `s` that begins at a non-space after nothing but
      whitespace is `TrimStart(s)`. */
  lemma TrimStartUnique(s: string, r: string)
    requires |r| <= |s| && r == s[|s| - |r|..]
    requires r == [] || !IsSpace(r[0])
    requires forall i :: 0 <= i < |s| - |r| ==> IsSpace(s[i])
    ensures TrimStart(s) == r
  {
    var t := TrimStart(s);
    if t != [] { assert !IsSpace(s[|s| - |t|]); }
    if r != [] { assert !IsSpace(s[|s| - |r|]); }
    assert |t| == |r|;
  }

  /** `s.length` in JavaScript: UTF-16 code units, so a character beyond
      U+FFFF counts twice. */
  function Utf16Length(s: string): (n: nat)
    ensures |s| <= n <= 2 * |s|
    ensures (forall i :: 0 <= i < |s| ==> s[i] as int <= 0xFFFF) ==> n == |s|
  {
    if s == [] then 0
    else (if s[0] as int > 0xFFFF then 2 else 1) + Utf16Length(s[1..])
  }

  /** One character is one code unit, or two beyond U+FFFF. */
  lemma Utf16Char(c: char)
    ensures Utf16Length([c]) == if c as int > 0xFFFF then 2 else 1
  {
    assert [c][1..] == [];
  }

  /** Code units add up over concatenation. */
  lemma {:induction false} Utf16Concat(a: string, b: string)
    ensures Utf16Length(a + b) == Utf16Length(a) + Utf16Length(b)
    decreases |a|
  {
    if a == [] {
      assert a + b == b;
    } else {
      assert (a + b)[0] == a[0] && (a + b)[1..] == a[1..] + b;
      Utf16Concat(a[1..], b);
    }
  }

  /** `"8.1😀"` is four characters but five code units. */
  lemma Utf16AstralExample()
    ensures Utf16Length("8.1\U{1F600}") == 5
  {
    var s := "8.1\U{1F600}";
    Utf16Concat("8.1", "\U{1F600}");
    Utf16Char('\U{1F600}');
    assert s == "8.1" + "\U{1F600}";
  }

  lemma EdgesNotSpace(s: string)
    requires s == [] || (!IsSpace(s[0]) && !IsSpace(s[|s| - 1]))
    ensures TrimEnd(s) == s && Trim(s) == s
  {
  }

  lemma SliceChars(s: string, lo: nat, hi: nat)
    requires lo <= hi <= |s|
    ensures forall c :: c in s[lo..hi] ==> c in s
  {
    forall c | c in s[lo..hi] ensures c in s {
      var i :| 0 <= i < hi - lo && s[lo..hi][i] == c;
      assert s[lo + i] == c;
    }
  }

  /** `pat` occurs in `s` starting at index `i`. */
  predicate StartsAt(s: string, i: nat, pat: string) {
    i + |pat| <= |s| && s[i..i + |pat|] == pat
  }

  /** `String.prototype.includes`. */
  predicate Contains(s: string, pat: string) {
    exists i :: 0 <= i <= |s| - |pat| && StartsAt(s, i, pat)
  }

  /** The first index at or after `i` holding `stop`, or `|s|` when there is none:
      where a `[^stop]*` run that begins at `i` ends. */
  function UntilChar(s: string, i: nat, stop: char): (e: nat)
    requires i <= |s|
    ensures i <= e <= |s|
    ensures forall k :: i <= k < e ==> s[k] != stop
    ensures e < |s| ==> s[e] == stop
    decreases |s| - i
  {
    if i == |s| || s[i] == stop then i else UntilChar(s, i + 1, stop)
  }

  /** Where the whitespace run that ends just before `j` begins. */
  function SpaceRunStart(s: string, j: nat): (b: nat)
    requires j <= |s|
    ensures b <= j
    ensures forall k :: b <= k < j ==> IsSpace(s[k])
    ensures b > 0 ==> !IsSpace(s[b - 1])
  {
    if j == 0 || !IsSpace(s[j - 1]) then j else SpaceRunStart(s, j - 1)
  }

  /** Where the whitespace run that begins at `i` ends (a greedy `\s*`). */
  function SpaceRunEnd(s: string, i: nat): (e: nat)
    requires i <= |s|
    ensures i <= e <= |s|
    ensures forall k :: i <= k < e ==> IsSpace(s[k])
    ensures e < |s| ==> !IsSpace(s[e])
    decreases |s| - i
  {
    if i == |s| || !IsSpace(s[i]) then i else SpaceRunEnd(s, i + 1)
  }

  /** A run of spaces stops at the first character that is not a space. */
  lemma SpaceRunEndsBefore(s: string, i: nat, j: nat)
    requires i <= j < |s| && !IsSpace(s[j])
    ensures SpaceRunEnd(s, i) <= j
  {
  }
}

=== FILE: upstream.dfy ===
/** The services the server talks to, as inputs. Every fetch is a total
    function from what the server asks for to `Ok(reply)` or `Fail` (a
    thrown request or an unusable reply); what cheerio and `JSON.parse`
    extract from a reply is part of the reply. */
module Upstream {
  import opened Wrappers
  import opened Chains

  /** One entry of TMDB's `results` array for a title search. */
  datatype TmdbMovie = TmdbMovie(
    id: int,
    title: string,
    releaseDate: Option<string>,  // `release_date`, absent or null as `None`
    posterPath: Option<string>)   // `poster_path`, absent or null as `None`

  /** One entry of TMDB's `videos.results`. */
  datatype Video = Video(site: string, kind: string, key: string)

  /** TMDB's movie details, with `videos` appended. */
  datatype MovieDetails = MovieDetails(
    title: string,
    releaseDate: Option<string>,
    overview: Option<string>,
    posterPath: Option<string>,
    videos: Option<seq<Video>>,   // `videos.results`; `None` when either is missing
    voteFixed: Option<string>)    // `vote_average.toFixed(1)`; `None` when `vote_average` is falsy

  /** One entry of OMDB's `Ratings`. */
  datatype OmdbRating = OmdbRating(source: string, value: string)

  /** OMDB's reply to a title lookup. */
  datatype OmdbReply = OmdbReply(
    response: string,                 // `Response`
    ratings: Option<seq<OmdbRating>>) // `Ratings`, `None` when absent

  /** The attributes the film-link rule reads from the first entry of
      Letterboxd's search results (`.results li.film`). */
  datatype SearchResult = SearchResult(
    posterTargetLink: Option<string>,  // `.film-poster` `data-target-link`
    posterAnchorHref: Option<string>,  // `.film-poster a` `href`
    titleAnchorHref: Option<string>)   // `h2.title a` `href`

  /** Everything the resolvers and the handler can fetch. */
  datatype Web = Web(
    tmdbSearch: string -> Reply<seq<TmdbMovie>>,   // `search/movie?query=…`
    tmdbImdbId: int -> Reply<Option<string>>,      // `movie/{id}` with `external_ids`: `imdb_id`
    tmdbDetails: string -> Reply<MovieDetails>,    // `movie/{id}` with `videos`
    omdb: string -> Reply<OmdbReply>,              // OMDB `?t=…`
    imdbPage: string -> Reply<ImdbPage>,           // by URL
    rtPage: string -> Reply<RtPage>,               // by URL
    lbPage: string -> Reply<LbPage>,               // by URL
    lbSearch: string -> Reply<Option<SearchResult>>, // by title: the first result, if any
    google: string -> Reply<seq<Option<string>>>)   // by query: each anchor's `href`, in page order
}

=== FILE: wrappers.dfy ===
/** The two result shapes every other module uses. */
module Wrappers {

  /** A value that may be missing (`undefined`, `null`, or no match). */
  datatype Option<+T> = None | Some(value: T)

  /** What an awaited call settles with: the value it resolved to, or a
      failure (network error, timeout, non-2xx status, a thrown exception). */
  datatype Reply<+T> = Ok(body: T) | Fail
}
